=== FILE: README.md ===
# PostgreSQL monitoring plugin, modelled in Dafny

This project models the `PostgreSQL` plugin of a server-monitoring agent
(`PostgreSQL.py`). It is a pure functional model with proofs about it.

The plugin object holds the agent's configuration dictionary and eight stat
attributes. Its constructor does two things:

- It copies the `[PostgreSQL]` section of the raw configuration into
  `agent_config`.
- It resets every stat to `None`.

Each call of `run` goes through these stages in order:

1. It checks the three required settings: database, user and host.
2. It checks that the `psycopg2` driver can be imported.
3. It defaults a falsy port to 5432.
4. It connects.
5. It runs seven probes, plus one derived value:
   - the server version, fetched only while none is cached;
   - the maximum and current connection counts;
   - the connection percentage, derived from the two counts;
   - the lock list;
   - the log-file settings;
   - the number of connected replicas;
   - the replica lag.
6. It returns a dictionary keyed by the stat names.

The plugin catches exactly two kinds of exception.

- A failed `import psycopg2` is logged, and `run` returns `False`.
- The driver's `OperationalError` is caught in three ways:
  - from `connect`, it is logged and `run` returns `False`;
  - from a probe's query, it is logged and the next probe runs;
  - from the lock query, the handler itself fails (see below), so nothing
    is logged.

Every other failure escapes `run`.

## How the model is laid out

| Module | What it holds |
|---|---|
| `PyValues` | Python `None`, truthiness and `dict.get` |
| `Events` | The probe names, the logger calls, the database actions and the exceptions that can escape `run` |
| `Config` | The configuration table, loading the section, the validation loop and port defaulting |
| `Text` | `str.split(' ')` and the version token (`split(' ')[1]`) |
| `Metrics` | The stat attributes and the connection-percentage derivation |
| `Snapshot` | The stat-name table and the returned dictionary |
| `Collector` | The probes after the connection, as a fold of one step function over the eight steps in source order |
| `PostgresPlugin` | The constructor `Init` and `run` as `Run` |
| `RunProperties` | Properties of whole runs and of runs one after another |

The outside world is a parameter, the `Oracle`. It says three things:

- whether `import psycopg2` succeeds;
- what `connect` does;
- how each of the seven queries answers.

Each answer is one of:

- rows;
- no row, where `fetchone()` gives `None`;
- an `OperationalError`;
- any other error.

`Run` returns the next instance, the result (`False`, the dictionary, or the
escaping exception), the sequence of database actions, and the sequence of
logger calls.

Some behaviour of the code is easy to miss.

- **Values from earlier runs carry over.** The stats are instance
  attributes, and only the constructor resets all of them to `None`. Each
  run empties the lock and log-file lists just before their queries, so
  those two never carry over. A failed integer probe leaves the earlier
  run's value in place, and a cached version is kept without a query.
- **The version is queried only while it is `None`.** Each run asks for it
  until one fetch succeeds. An `OperationalError` leaves it `None`, so the
  next run asks again. After a success, no run asks again.
- **The lock handler raises.** It formats its message by calling a string,
  because the `%` operator is missing. An `OperationalError` from the lock
  query therefore becomes a `TypeError` that leaves `run`. That happens
  after the lock list has been emptied and before the later probes run.
- **The section check does not stop the plugin.** Without a
  `[PostgreSQL]` section the constructor logs at debug level and leaves
  `agent_config` alone. `run` then validates whatever `agent_config`
  already holds.
- **`run` does not close the connection itself.** There is no `close()`
  call. The connection object is a local of `run`, so the connection closes
  only when that object is garbage-collected.

## Model

| member | source | states |
|---|---|---|
| Config.CopyParams | PostgreSQL.py:36-37 | after the copy loop, every table name holds the section's value for its key. Every other entry is kept. The keys are exactly the old keys plus the table names |
| Config.Load | PostgreSQL.py:35-41 | a truthy section overwrites all five internal names from the section and logs nothing, keeping the other entries. A missing or empty section leaves the configuration unchanged and logs one debug message |
| Config.FirstMissing | PostgreSQL.py:50-58 | the validation loop gives no key exactly when every required entry is truthy. Otherwise it gives the key of a required, falsy entry such that every required entry before it is truthy |
| Config.ValidationNamesFirstRequired | PostgreSQL.py:7-14 | on the actual table, validation fails exactly when database, user or host is falsy. It names them in that order and never names the password or the port |
| Config.DefaultPort | PostgreSQL.py:66-67 | afterwards the port is truthy. A truthy port is kept, a falsy one becomes 5432, and every other entry is unchanged |
| Config.DefaultPortIdempotent | PostgreSQL.py:66-67 | defaulting the port twice equals defaulting it once |
| Text.Split | PostgreSQL.py:90 | `split` gives at least one part and no part contains the separator. It gives the whole string alone exactly when the separator does not occur |
| Text.JoinSplit | PostgreSQL.py:90 | joining the parts of a split with the separator gives back the string |
| Text.SplitJoin | PostgreSQL.py:90 | splitting the join of separator-free parts gives back the parts |
| Text.VersionToken | PostgreSQL.py:90 | the token exists exactly when the banner has a space. It is space-free and is the text running from just after the first space to the next space or the end |
| Text.SecondFieldFollowsFirstSpace | PostgreSQL.py:90 | for a banner with a space, `split(' ')[1]` is the stretch of text after the first space, up to the next space or the end |
| Text.VersionTokenOfFields | PostgreSQL.py:90 | a banner made of a space-free word, a space, a space-free token, then nothing or text starting with a space yields exactly that token |
| Text.VersionTokenOfBanner | PostgreSQL.py:88-90 | the banner `PostgreSQL 9.3.5 on x86_64` yields the version `9.3.5` |
| Metrics.DerivePercent | PostgreSQL.py:116-117 | when both counts are truthy, the percentage becomes current/max·100. Otherwise every stat is unchanged. No other stat is ever touched |
| Metrics.PercentIsShare | PostgreSQL.py:117 | the percentage times max equals 100 times current |
| Metrics.QuarterIsTwentyFivePercent | PostgreSQL.py:116-117 | 25 connections out of 100 give 25.0 |
| Metrics.NoPercentWithoutMax | PostgreSQL.py:116 | with no max count, the percentage is kept as it was |
| Snapshot.Assemble | PostgreSQL.py:174-178 | the dictionary has every stat name as a key, and each key maps to the attribute's current value |
| Snapshot.Position | PostgreSQL.py:15-24 | every stat name occurs in the stat table, at the position returned |
| Snapshot.ReadAssemble | PostgreSQL.py:174-178 | reading the returned dictionary back gives exactly the instance's stats |
| Snapshot.AssembleRead | PostgreSQL.py:174-178 | a dictionary that reads back as stats is the dictionary those stats assemble to |
| Snapshot.AssembleKeepsRows | PostgreSQL.py:174-178 | the lock and log-settings entries are the stored row lists |
| Collector.WithIntStat | PostgreSQL.py:102 | writing one integer stat changes that stat only |
| Collector.VersionProbe | PostgreSQL.py:84-94 | issues the version query. A row sets the version to the banner's token. A banner without a space raises the `IndexError` of `split(' ')[1]`. No row raises the `TypeError` of indexing `None`. Any other driver error passes through unchanged. An `OperationalError` is logged. No other stat changes |
| Collector.IntProbe | PostgreSQL.py:96-172 | for each of the four integer probes (max and current connections, replicas, lag), it issues the probe's query. A row stores its cell, which may be `None` for SQL `NULL`. An `OperationalError` is logged and keeps the prior value. No row raises the `TypeError` of indexing `None`, and any other driver error passes through unchanged. In both cases nothing else changes |
| Collector.AppendEach | PostgreSQL.py:124-125 | the append loop gives the old list followed by the fetched rows in order |
| Collector.LocksProbe | PostgreSQL.py:119-127 | the lock list is reset to empty and then holds the fetched rows. Every failure escapes and none is logged. An `OperationalError` escapes as the handler's `TypeError`, and any other driver error passes through unchanged |
| Collector.LogFileProbe | PostgreSQL.py:129-139 | the settings list is reset to empty and then holds the fetched rows. An `OperationalError` is logged and leaves the list empty. Any other driver error passes through unchanged |
| Collector.PlanWritesTable | PostgreSQL.py:84-172 | the steps after connecting write the stats in the stat table's order, each one exactly once |
| Collector.Apply | PostgreSQL.py:84-172 | once something has escaped, nothing changes. A step issues only its own query and logs only its own failure. It writes only its own stat. It escapes exactly when its answer is unsafe, with its own query as the last action |
| Collector.LaterStepsIgnoreVersion | PostgreSQL.py:85 | only the first step depends on the cached version |
| Collector.RaisedStays | PostgreSQL.py:84-172 | after an escape, no later step changes anything |
| Collector.SafeUptoRuns | PostgreSQL.py:84-172 | a prefix of the steps completes exactly when each of its steps is safe on the stats it meets |
| Collector.TraceFollowsIssued | PostgreSQL.py:84-172 | the queries issued are a prefix of the scheduled ones, and all of them when nothing escapes |
| Collector.TraceGrows | PostgreSQL.py:84-172 | the queries of a shorter prefix are a prefix of those of a longer one |
| Collector.LogFollowsLogged | PostgreSQL.py:91-172 | the messages logged are a prefix of the errors the answers call for, and all of them when nothing escapes |
| Collector.RaiserIsLast | PostgreSQL.py:84-172 | an escaping exception names the query that raised it, and that query is the last action |
| Collector.Untouched | PostgreSQL.py:84-172 | a stat is unchanged across any stretch of steps that does not contain its own step |
| Collector.UntouchedFromStart | PostgreSQL.py:84-172 | the steps before a stat's own step leave it unchanged |
| Collector.CompletedBefore | PostgreSQL.py:84-172 | when the whole sequence completes, so does every prefix of it |
| Collector.CompletesThroughout | PostgreSQL.py:84-172 | when no answer is unsafe, every prefix completes |
| Collector.IssuedIsSchedule | PostgreSQL.py:84-172 | the queries of all steps are, in order: the version query only when no version is cached, then max connections, current connections, locks, log file, replicas and lag |
| Collector.LoggedIsIsolatedLog | PostgreSQL.py:91-172 | the errors of all steps are exactly one per probe failing with `OperationalError` except the lock probe, in probe order |
| Collector.LoggedUpToLocks | PostgreSQL.py:91-114 | the errors of the steps before the lock probe are those of the version and the two count probes |
| Collector.NoEscapeIsSafe | PostgreSQL.py:84-172 | every step is safe exactly when no answer would raise past its handler |
| Collector.CollectIsolation | PostgreSQL.py:84-172 | the probes complete exactly when no answer escapes. Then the stats are the field-by-field isolated values, every scheduled query is issued, and one error is logged per failed probe |
| Collector.IntStepSettles | PostgreSQL.py:96-172 | when the probes complete, each of the four integer stats (max and current connections, replicas, lag) is the cell of its row, or its prior value after an `OperationalError` |
| Collector.IsolatedStats | PostgreSQL.py:84-172 | without escapes, the stats after the probes are the isolated stats |
| Collector.IsolatedVersion | PostgreSQL.py:84-94 | without escapes, an uncached version becomes the banner's token and a cached one is kept |
| Collector.IsolatedPercent | PostgreSQL.py:116-117 | without escapes, the percentage is the one derived from the counts as they stand after the count probes |
| Collector.PercentSettles | PostgreSQL.py:116-117 | when the probes complete, the percentage is derived from the final counts starting from its prior value |
| Collector.PercentAfterCounts | PostgreSQL.py:116-117 | once the count probes are passed, the derivation uses the final counts |
| Collector.PercentKeptOnEarlyEscape | PostgreSQL.py:84-117 | an escape before the derivation keeps the prior percentage |
| Collector.IsolatedLocks | PostgreSQL.py:119-125 | without escapes, the lock stat is the fetched rows |
| Collector.IsolatedLogFile | PostgreSQL.py:129-139 | without escapes, the log-settings stat is the fetched rows, or empty after an `OperationalError` |
| Collector.CollectFollowsSchedule | PostgreSQL.py:84-172 | the queries issued are a prefix of the schedule, and all of it when nothing escapes. An escape comes from the last query issued |
| Collector.SpacelessBannerEscapes | PostgreSQL.py:84-90 | with no version cached, a banner without a space makes the probes raise the `IndexError`, after the version query alone |
| Collector.CollectVersion | PostgreSQL.py:84-94 | the version is queried exactly when none is cached. A cached version is kept, and a fetched row sets it to the banner's token |
| Collector.VersionQueriedFirst | PostgreSQL.py:84-90 | without a cached version, the version query comes first |
| Collector.VersionNotQueried | PostgreSQL.py:85 | with a cached version, the version query is not issued |
| Collector.LocksErrorEscapes | PostgreSQL.py:119-172 | if the probes reach the lock query and it fails with `OperationalError`, the handler's `TypeError` escapes and nothing is logged for it. The lock list is left empty. The log-file, replica and lag probes never run, and their stats keep their prior values |
| Collector.LocksErrorStep | PostgreSQL.py:119-127 | the lock step on an `OperationalError` empties the list, issues the lock query, logs nothing and raises the `TypeError` |
| Collector.LocksErrorStops | PostgreSQL.py:119-127 | after that escape, the state is the one the lock step left |
| Collector.LocksErrorKeepsLaterStats | PostgreSQL.py:129-172 | after that escape, the log-file, replica and lag stats keep their prior values |
| Collector.LocksErrorUnlogged | PostgreSQL.py:126-127 | after that escape, no lock error has been logged |
| Collector.LocksErrorLastQuery | PostgreSQL.py:129-172 | after that escape, the log-file, replica and lag queries have not been issued |
| Collector.LocksNeverLogged | PostgreSQL.py:126-127 | no prefix of the steps logs a lock error |
| Collector.OnlyQueryErrorsLogged | PostgreSQL.py:91-172 | the probes log only query errors, never a configuration, import or connection message |
| Collector.IssuedBeforeLogFile | PostgreSQL.py:84-127 | the steps up to the lock probe issue none of the later queries |
| Collector.PercentFollowsCounts | PostgreSQL.py:116-117 | the percentage changes only when both final counts are truthy, and then to current/max·100 |
| Collector.FetchedIntStays | PostgreSQL.py:96-172 | an integer probe that is reached and fetches a row leaves the row's cell in its stat, even if a later probe escapes |
| Collector.MaxFetchedStays | PostgreSQL.py:84-106 | once the version probe is passed, a fetched max-connections count stays on the stats, even if a later probe escapes |
| Collector.FailedIntKeeps | PostgreSQL.py:96-172 | an integer probe that fails with `OperationalError` leaves its stat as it was before the run |
| PostgresPlugin.Init | PostgreSQL.py:29-45 | every stat starts unset. With a section, the five table names come from it and nothing is logged. Without one, the configuration is kept and the debug message is logged |
| PostgresPlugin.Run | PostgreSQL.py:48-178 | a returned dictionary is the one assembled from the stats left on the instance. Without any database action, nothing changes and `False` is returned. Otherwise the first action is `connect` with the stored configuration |
| RunProperties.RejectedBeforeConnect | PostgreSQL.py:50-65 | `run` performs no database action exactly when a required value is falsy or the driver is missing. It then returns `False` and leaves the instance unchanged. It logs the first falsy key (database, then user, then host), or the import failure |
| RunProperties.ConnectErrorEscapes | PostgreSQL.py:70-78 | an exception from `connect` other than `OperationalError` escapes `run` after the one connect attempt. Nothing is logged and no stat changes |
| RunProperties.ConnectionFailure | PostgreSQL.py:70-82 | a connection `OperationalError` returns `False` after the one connect attempt. It logs one error and changes no stat |
| RunProperties.ConnectsWithDefaultedPort | PostgreSQL.py:66-77 | `connect` receives the configured values, with 5432 for a falsy port, and the defaulted port stays in the configuration |
| RunProperties.PortDefaultedOnce | PostgreSQL.py:66-67 | a second run leaves the configuration produced by the first as it is |
| RunProperties.RunIsolation | PostgreSQL.py:84-178 | after connecting, `run` raises exactly when some answer escapes its handler. Otherwise it returns the dictionary of the isolated stats, after issuing the scheduled queries and logging one error per failed probe |
| RunProperties.ReturnedDictionary | PostgreSQL.py:174-178 | a returned dictionary has every stat name and reads back as the instance's stats after the run |
| RunProperties.ReturnedRowsAsFetched | PostgreSQL.py:119-139 | the lock and log-settings entries of the dictionary are the fetched rows in fetch order |
| RunProperties.IsolatedRows | PostgreSQL.py:119-139 | the lock and log-settings entries of the isolated dictionary are the fetched rows |
| RunProperties.LocksErrorEscapesRun | PostgreSQL.py:119-127 | an `OperationalError` from the lock query makes `run` raise the `TypeError`. The lock list is empty, the log-file stat is kept, and the lag query is never issued |
| RunProperties.RunLogsErrors | PostgreSQL.py:48-178 | every message `run` logs is at error level: the incomplete configuration (52), the failed import (64), the connection error (79) and each query error (92, 104, 112, 137, 149, 170) |
| RunProperties.InitLogsDebugOnlyWithoutSection | PostgreSQL.py:35-41 | the constructor logs a debug-level message exactly when the section is missing or empty, and logs nothing at any other level |
| RunProperties.VersionFetchedWhileUnset | PostgreSQL.py:84-90 | a connected run queries the version exactly when none is cached, and a fetched row sets it to the banner's token |
| RunProperties.VersionKept | PostgreSQL.py:85 | a run leaves a cached version as it is, whatever happens |
| RunProperties.VersionCachedAcrossRuns | PostgreSQL.py:85 | once a version is cached, no sequence of later runs changes it |
| RunProperties.PercentOnlyFromCounts | PostgreSQL.py:116-117 | a run changes the percentage only when both counts are truthy after it, and then to current/max·100 |
| RunProperties.FreshPercentNeedsMax | PostgreSQL.py:96-117 | on a fresh instance, a failed max-connections query leaves the percentage unset |
| RunProperties.MaxConnectionsKeptAfterFailure | PostgreSQL.py:96-106 | a failed max-connections query keeps the prior count |
| RunProperties.StatsPersistAcrossRuns | PostgreSQL.py:96-106 | a count fetched by one run survives a later run whose query for it fails with `OperationalError`. The first run need only get past the version probe; a later escape in it does not undo the fetch |

## Left out

- The SQL text and the server's evaluation of it are left out, because the server is outside the plugin. Each query is represented only by the answer the `Oracle` gives.
- The message texts and the logger object are left out, because their wording is presentation. A logger call is represented by its kind and the probe it reports.
- The version cell is taken to be non-`NULL` text. `SELECT VERSION()` always gives a string, so a `NULL` banner is not modelled.
- The percentage is exact rational arithmetic, not a floating-point division.
- Stat names are an enumeration, not the `PLUGIN_STATS` strings. The order of the table is kept (`Snapshot.PluginStats`).
- Exceptions are identified by their kind, not by their message or traceback.
- The instance's `checks_logger` and `raw_config` attributes are not kept. Only the configuration they produce and the log events are modelled.
- The `__main__` block (PostgreSQL.py:180-193) is a manual test harness, not part of the plugin.
- Concurrency and the connection's lifetime are left out. `run` never closes the connection itself; it closes only when the connection object is garbage-collected, and the model has no connection object.
- Text.Join: has no contract of its own. Its meaning is stated by Text.JoinSplit and Text.SplitJoin.
- Config.SectionValue: a plain definition of `section.get(key, None)` with no contract of its own. Its meaning is stated by the Config.CopyParams and Config.Load contracts that use it.
- PyValues.Get: a plain definition of `dict.get` with no contract of its own. It is used throughout the contracts on the configuration.
- Events.Severity: a plain definition of the log level of each event. Its meaning is stated by RunProperties.RunLogsErrors and RunProperties.InitLogsDebugOnlyWithoutSection.
- PyValues.Truthy: a plain definition of Python truthiness (PostgreSQL.py:51, 66). It is used throughout the contracts on validation and port defaulting.
- PyValues.TruthyInt: a plain definition of the truthiness of an optional integer stat, the test at PostgreSQL.py:116. Its meaning is stated by Metrics.DerivePercent and Collector.PercentFollowsCounts.
- Config.SectionPresent: a plain definition of `raw_config.get('PostgreSQL', False)` being truthy (PostgreSQL.py:35). Its meaning is stated by Config.Load and PostgresPlugin.Init.
- Collector.Settled: a plain definition of what an integer probe leaves in its stat: the row's cell, or the prior value (PostgreSQL.py:102-106). Its meaning is stated by Collector.IntProbe and Collector.IntStepSettles.
- Collector.Upto and Collector.Collect: plain definitions of the probe sequence (PostgreSQL.py:84-172) as a fold of Collector.Apply over the plan. Their meaning is stated by Collector.CollectIsolation, Collector.CollectFollowsSchedule and the other Collector lemmas.
- Collector.Issued, Collector.Logged, Collector.SafeUpto, Collector.NoEscape, Collector.Schedule, Collector.Isolated and Collector.IsolatedLog: plain reference definitions of the queries, errors, safety and results of the probes. Collector.IssuedIsSchedule, Collector.LoggedIsIsolatedLog, Collector.NoEscapeIsSafe and Collector.CollectIsolation tie them to the fold.
- Collector.ReachesLocks: a plain definition of the answers that let the probes reach the lock query. It is the hypothesis of Collector.LocksErrorEscapes.
- RunProperties.RunMany: a plain definition of runs one after another on the same instance. Its meaning is stated by RunProperties.VersionCachedAcrossRuns.
- Metrics.PercentOf: a plain definition of `float(current) / max * 100` (PostgreSQL.py:117). Its meaning is stated by Metrics.PercentIsShare.
- Snapshot.Attr: a plain definition of `getattr(self, name, None)` (PostgreSQL.py:177). Its meaning is stated by Snapshot.Assemble, Snapshot.ReadAssemble and Snapshot.AssembleRead.
- PostgresPlugin.ConnectArgsOf: a plain definition of the keyword arguments of `connect` (PostgreSQL.py:71-77). Its meaning is stated by RunProperties.ConnectsWithDefaultedPort.
- `agent_config` is the caller's own dictionary, which the source changes in place (PostgreSQL.py:30, 37, 67). The model keeps the configuration as a value on the `Instance`, so the caller does not see those changes through its own reference.

=== FILE: collector.dfy ===
/** The probe sequence of `run`, once a connection exists: seven queries that
    each overwrite their stat on success, the derived percentage, and the
    error handling around each query. */
module Collector {

  import opened PyValues
  import opened Events
  import opened Metrics
  import opened Text
  import opened Snapshot

  /** What a query does: deliver its result, raise the driver's
      `OperationalError` (the one exception caught around `connect` and the
      queries), or raise anything else. */
  datatype Outcome<+T> = Ok(value: T) | OpError | OtherError

  /** What `fetchone()` returns: a row whose first column is `cell`, or `None`. */
  datatype Fetched<+T> = Row(cell: T) | NoRow

  /** A single-value query whose cell may be SQL `NULL`. */
  type IntQuery = Outcome<Fetched<Option<int>>>

  /** The server's answers to the seven queries of one run. */
  datatype Answers = Answers(
    version: Outcome<Fetched<string>>,
    maxConnections: IntQuery,
    currentConnections: IntQuery,
    locks: Outcome<seq<LockRow>>,
    logFile: Outcome<seq<SettingRow>>,
    connectedSlaves: IntQuery,
    slaveLag: IntQuery)

  /** The state threaded through the probes: the stats so far, the queries
      issued, the log written, and the exception escaping, if any. */
  datatype Progress = Progress(
    stats: Stats,
    trace: seq<Action>,
    log: seq<LogEvent>,
    raised: Option<Exception>)

  /** The four probes whose stat is a single integer cell. */
  predicate IsIntProbe(p: Probe) {
    p == MaxConnections || p == CurrentConnections || p == ConnectedSlaves || p == SlaveLag
  }

  /** The stat an integer probe writes. */
  function IntStat(s: Stats, p: Probe): Option<int>
    requires IsIntProbe(p)
  {
    match p
    case MaxConnections => s.maxConnections
    case CurrentConnections => s.currentConnections
    case ConnectedSlaves => s.connectedSlaves
    case SlaveLag => s.slaveLag
  }

  /** Stores `v` in the stat of integer probe `p`, leaving every other stat alone. */
  function WithIntStat(s: Stats, p: Probe, v: Option<int>): (r: Stats)
    requires IsIntProbe(p)
    ensures IntStat(r, p) == v
    ensures forall q :: IsIntProbe(q) && q != p ==> IntStat(r, q) == IntStat(s, q)
    ensures r.version == s.version && r.connectionsPercent == s.connectionsPercent
    ensures r.locks == s.locks && r.logFile == s.logFile
  {
    match p
    case MaxConnections => s.(maxConnections := v)
    case CurrentConnections => s.(currentConnections := v)
    case ConnectedSlaves => s.(connectedSlaves := v)
    case SlaveLag => s.(slaveLag := v)
  }

  /** The version probe: `result[0].split(' ')[1]`. A missing row or a
      banner without a space raises, and neither is caught. */
  function VersionProbe(acc: Progress, out: Outcome<Fetched<string>>): (r: Progress)
    requires acc.raised.None? && acc.stats.version.None?
    ensures r.trace == acc.trace + [Query(Version)]
    ensures out.Ok? && out.value.Row? ==> r.stats.version == VersionToken(out.value.cell)
    ensures !(out.Ok? && out.value.Row?) ==> r.stats.version.None?
    ensures r.stats.(version := acc.stats.version) == acc.stats
    ensures r.raised.None? <==> out.OpError? || (out.Ok? && out.value.Row? && ' ' in out.value.cell)
    ensures r.raised.Some? ==> RaisedBy(r.raised.value) == Some(Version)
    ensures r.log == acc.log + (if out.OpError? then [QueryError(Version)] else [])
    ensures out.Ok? && out.value.Row? && ' ' !in out.value.cell ==> r.raised == Some(VersionIndexError)
    ensures out == Ok(NoRow) ==> r.raised == Some(NoRowTypeError(Version))
    ensures out.OtherError? ==> r.raised == Some(Uncaught(Version))
  {
    var acc := acc.(trace := acc.trace + [Query(Version)]);
    match out
    case Ok(Row(raw)) =>
      (match VersionToken(raw)
       case Some(token) => acc.(stats := acc.stats.(version := Some(token)))
       case None => acc.(raised := Some(VersionIndexError)))
    case Ok(NoRow) => acc.(raised := Some(NoRowTypeError(Version)))
    case OpError => acc.(log := acc.log + [QueryError(Version)])
    case OtherError => acc.(raised := Some(Uncaught(Version)))
  }

  /** An integer probe: `fetchone()[0]` is stored on success, an
      `OperationalError` is logged and the stat kept. */
  function IntProbe(acc: Progress, p: Probe, out: IntQuery): (r: Progress)
    requires IsIntProbe(p)
    requires acc.raised.None?
    ensures r.trace == acc.trace + [Query(p)]
    ensures r.raised.None? <==> out.OpError? || (out.Ok? && out.value.Row?)
    ensures r.raised.Some? ==> RaisedBy(r.raised.value) == Some(p)
    ensures r.raised.None? ==> r.stats == WithIntStat(acc.stats, p, Settled(IntStat(acc.stats, p), out))
    ensures r.raised.Some? ==> r.stats == acc.stats && r.log == acc.log
    ensures r.log == acc.log + (if out.OpError? then [QueryError(p)] else [])
    ensures out == Ok(NoRow) ==> r.raised == Some(NoRowTypeError(p))
    ensures out.OtherError? ==> r.raised == Some(Uncaught(p))
  {
    var acc := acc.(trace := acc.trace + [Query(p)]);
    match out
    case Ok(Row(cell)) => acc.(stats := WithIntStat(acc.stats, p, cell))
    case Ok(NoRow) => acc.(raised := Some(NoRowTypeError(p)))
    case OpError => acc.(log := acc.log + [QueryError(p)])
    case OtherError => acc.(raised := Some(Uncaught(p)))
  }

  /** The value an isolated integer probe leaves behind: the fetched cell on
      success, the prior value on an `OperationalError`. */
  function Settled(prior: Option<int>, out: IntQuery): Option<int> {
    if out.Ok? && out.value.Row? then out.value.cell else prior
  }

  /** The fetch loop `for row in cursor.fetchall(): lst.append(row)`. */
  function AppendEach<T>(acc: seq<T>, rows: seq<T>): (r: seq<T>)
    ensures r == acc + rows
    decreases |rows|
  {
    if rows == [] then acc
    else AppendEach(acc + [rows[0]], rows[1..])
  }

  /** The locks probe. The list is reset to `[]` before the query. Its
      `OperationalError` handler applies a string to a tuple (the `%` is
      missing), so the `OperationalError` turns into a `TypeError` that
      escapes instead of being logged. */
  function LocksProbe(acc: Progress, out: Outcome<seq<LockRow>>): (r: Progress)
    requires acc.raised.None?
    ensures r.trace == acc.trace + [Query(Locks)]
    ensures r.log == acc.log
    ensures r.raised.None? <==> out.Ok?
    ensures r.raised.Some? ==> RaisedBy(r.raised.value) == Some(Locks)
    ensures out.OpError? ==> r.raised == Some(LocksHandlerTypeError)
    ensures out.OtherError? ==> r.raised == Some(Uncaught(Locks))
    ensures r.stats.locks == Some(if out.Ok? then out.value else [])
    ensures r.stats.(locks := acc.stats.locks) == acc.stats
  {
    var acc := acc.(stats := acc.stats.(locks := Some([])), trace := acc.trace + [Query(Locks)]);
    match out
    case Ok(rows) =>
      assert [] + rows == rows;
      acc.(stats := acc.stats.(locks := Some(AppendEach(acc.stats.locks.value, rows))))
    case OpError => acc.(raised := Some(LocksHandlerTypeError))
    case OtherError => acc.(raised := Some(Uncaught(Locks)))
  }

  /** The log-settings probe. The list is reset to `[]` before the query, so
      an `OperationalError` leaves it empty rather than at its prior value. */
  function LogFileProbe(acc: Progress, out: Outcome<seq<SettingRow>>): (r: Progress)
    requires acc.raised.None?
    ensures r.trace == acc.trace + [Query(LogFile)]
    ensures r.raised.None? <==> !out.OtherError?
    ensures r.raised.Some? ==> RaisedBy(r.raised.value) == Some(LogFile)
    ensures r.log == acc.log + (if out.OpError? then [QueryError(LogFile)] else [])
    ensures out.OtherError? ==> r.raised == Some(Uncaught(LogFile))
    ensures r.stats.logFile == Some(if out.Ok? then out.value else [])
    ensures r.stats.(logFile := acc.stats.logFile) == acc.stats
  {
    var acc := acc.(stats := acc.stats.(logFile := Some([])), trace := acc.trace + [Query(LogFile)]);
    match out
    case Ok(rows) =>
      assert [] + rows == rows;
      acc.(stats := acc.stats.(logFile := Some(AppendEach(acc.stats.logFile.value, rows))))
    case OpError => acc.(log := acc.log + [QueryError(LogFile)])
    case OtherError => acc.(raised := Some(Uncaught(LogFile)))
  }

  /** One step of `run` once connected: a probe, or deriving the percentage. */
  datatype Step = Ask(probe: Probe) | Derive

  /** The steps of `run` once connected, in source order. */
  const Plan: seq<Step> := [
    Ask(Version),
    Ask(MaxConnections),
    Ask(CurrentConnections),
    Derive,
    Ask(Locks),
    Ask(LogFile),
    Ask(ConnectedSlaves),
    Ask(SlaveLag)
  ]

  /** The stat attribute a step writes. */
  function StatOf(k: Step): StatName {
    match k
    case Derive => PostgresConnectionsPercent
    case Ask(p) =>
      match p
      case Version => PostgresVersion
      case MaxConnections => PostgresMaxConnections
      case CurrentConnections => PostgresCurrentConnections
      case Locks => PostgresLocks
      case LogFile => PostgresLogFile
      case ConnectedSlaves => PostgresConnectedSlaves
      case SlaveLag => PostgresSlaveLag
  }

  /** The steps write the stats in table order, each exactly once. */
  lemma PlanWritesTable(i: nat)
    requires i < |Plan|
    ensures Position(StatOf(Plan[i])) == i
  {
    if i == 0 {
    } else if i == 1 {
    } else if i == 2 {
    } else if i == 3 {
    } else if i == 4 {
    } else if i == 5 {
    } else if i == 6 {
    } else {
      assert i == 7;
    }
  }

  /** The answer to an integer probe's query. */
  function IntAnswer(a: Answers, p: Probe): IntQuery
    requires IsIntProbe(p)
  {
    match p
    case MaxConnections => a.maxConnections
    case CurrentConnections => a.currentConnections
    case ConnectedSlaves => a.connectedSlaves
    case SlaveLag => a.slaveLag
  }

  /** The query of probe `p` fails with `OperationalError`. */
  predicate Failed(a: Answers, p: Probe) {
    match p
    case Version => a.version.OpError?
    case MaxConnections => a.maxConnections.OpError?
    case CurrentConnections => a.currentConnections.OpError?
    case Locks => a.locks.OpError?
    case LogFile => a.logFile.OpError?
    case ConnectedSlaves => a.connectedSlaves.OpError?
    case SlaveLag => a.slaveLag.OpError?
  }

  /** The version probe runs: no version is cached. */
  predicate Queries(k: Step, st: Stats) {
    k.Ask? && (k.probe != Version || st.version.None?)
  }

  /** The queries step `k` issues on stats `st`. */
  function QueriesOf(k: Step, st: Stats): seq<Action> {
    if Queries(k, st) then [Query(k.probe)] else []
  }

  /** The errors step `k` logs: one for a query failing with
      `OperationalError`, except the lock query, whose handler is broken. */
  function ErrorsOf(k: Step, st: Stats, a: Answers): seq<LogEvent> {
    if Queries(k, st) && k.probe != Locks && Failed(a, k.probe) then [QueryError(k.probe)] else []
  }

  /** Step `k` on stats `st` raises nothing that escapes. */
  predicate StepSafe(k: Step, st: Stats, a: Answers) {
    match k
    case Derive => true
    case Ask(p) =>
      match p
      case Version => st.version.Some? || a.version.OpError? || (a.version.Ok? && a.version.value.Row? && ' ' in a.version.value.cell)
      case Locks => a.locks.Ok?
      case LogFile => !a.logFile.OtherError?
      case _ => IntSafe(IntAnswer(a, p))
  }

  /** An integer query that cannot raise past its handler. */
  predicate IntSafe(out: IntQuery) {
    out.OpError? || (out.Ok? && out.value.Row?)
  }

  /** An escaped exception was raised by the last query issued. */
  predicate EndsAtRaiser(p: Progress) {
    p.raised.Some? ==>
      && |p.trace| > 0
      && RaisedBy(p.raised.value).Some?
      && p.trace[|p.trace| - 1] == Query(RaisedBy(p.raised.value).value)
  }

  /** One step. Once an exception escapes nothing further runs; the version
      probe runs only while no version is cached. A step issues its own
      query, logs its own failure, writes its own stat and nothing else, and
      raises exactly when its answer is unsafe, right after its query. */
  function Apply(p: Progress, k: Step, a: Answers): (r: Progress)
    ensures p.raised.Some? ==> r == p
    ensures p.raised.None? ==> r.trace == p.trace + QueriesOf(k, p.stats)
    ensures p.raised.None? ==> r.log == p.log + ErrorsOf(k, p.stats, a)
    ensures p.raised.None? ==> (r.raised.None? <==> StepSafe(k, p.stats, a))
    ensures forall n :: n != StatOf(k) ==> Attr(r.stats, n) == Attr(p.stats, n)
    ensures EndsAtRaiser(p) ==> EndsAtRaiser(r)
  {
    if p.raised.Some? then p
    else
      match k
      case Derive => p.(stats := DerivePercent(p.stats))
      case Ask(q) =>
        match q
        case Version => if p.stats.version.None? then VersionProbe(p, a.version) else p
        case Locks => LocksProbe(p, a.locks)
        case LogFile => LogFileProbe(p, a.logFile)
        case _ => IntProbe(p, q, IntAnswer(a, q))
  }

  /** The progress after the first `n` steps of the plan. */
  function Upto(s: Stats, a: Answers, n: nat): Progress
    requires n <= |Plan|
  {
    if n == 0 then Progress(s, [], [], None) else Apply(Upto(s, a, n - 1), Plan[n - 1], a)
  }

  /** Everything `run` does after connecting, starting from stats `s`. */
  function Collect(s: Stats, a: Answers): Progress {
    Upto(s, a, |Plan|)
  }

  /** The queries of the first `n` steps. */
  function Issued(s: Stats, n: nat): seq<Action>
    requires n <= |Plan|
  {
    if n == 0 then [] else Issued(s, n - 1) + QueriesOf(Plan[n - 1], s)
  }

  /** The errors the first `n` steps log. */
  function Logged(s: Stats, a: Answers, n: nat): seq<LogEvent>
    requires n <= |Plan|
  {
    if n == 0 then [] else Logged(s, a, n - 1) + ErrorsOf(Plan[n - 1], s, a)
  }

  /** The first `n` steps are all safe. */
  predicate SafeUpto(s: Stats, a: Answers, n: nat)
    requires n <= |Plan|
  {
    n == 0 || (SafeUpto(s, a, n - 1) && StepSafe(Plan[n - 1], s, a))
  }

  /** No query raises anything but a caught `OperationalError`: the version
      (if queried) has a row holding a space, every single-value query has a
      row, and the lock query succeeds. */
  predicate NoEscape(s: Stats, a: Answers) {
    && (s.version.None? ==> a.version.OpError? || (a.version.Ok? && a.version.value.Row? && ' ' in a.version.value.cell))
    && IntSafe(a.maxConnections)
    && IntSafe(a.currentConnections)
    && a.locks.Ok?
    && !a.logFile.OtherError?
    && IntSafe(a.connectedSlaves)
    && IntSafe(a.slaveLag)
  }

  /** The queries of a run, in order. */
  function Schedule(s: Stats): seq<Action> {
    (if s.version.None? then [Query(Version)] else [])
    + [Query(MaxConnections)] + [Query(CurrentConnections)] + [Query(Locks)]
    + [Query(LogFile)] + [Query(ConnectedSlaves)] + [Query(SlaveLag)]
  }

  /** Field by field, what a run without escapes leaves on the instance. */
  function Isolated(s: Stats, a: Answers): Stats
    requires NoEscape(s, a)
  {
    var mx := Settled(s.maxConnections, a.maxConnections);
    var cur := Settled(s.currentConnections, a.currentConnections);
    Stats(
      if s.version.None? && a.version.Ok? then VersionToken(a.version.value.cell) else s.version,
      mx,
      cur,
      if TruthyInt(mx) && TruthyInt(cur) then Some(PercentOf(cur.value, mx.value)) else s.connectionsPercent,
      Some(a.locks.value),
      Some(if a.logFile.Ok? then a.logFile.value else []),
      Settled(s.connectedSlaves, a.connectedSlaves),
      Settled(s.slaveLag, a.slaveLag))
  }

  /** One error message per query that failed with `OperationalError`, in query order. */
  function IsolatedLog(s: Stats, a: Answers): seq<LogEvent> {
    (if s.version.None? && a.version.OpError? then [QueryError(Version)] else [])
    + (if a.maxConnections.OpError? then [QueryError(MaxConnections)] else [])
    + (if a.currentConnections.OpError? then [QueryError(CurrentConnections)] else [])
    + (if a.logFile.OpError? then [QueryError(LogFile)] else [])
    + (if a.connectedSlaves.OpError? then [QueryError(ConnectedSlaves)] else [])
    + (if a.slaveLag.OpError? then [QueryError(SlaveLag)] else [])
  }

  // Facts about every prefix of the plan, by induction on its length.

  /** Only the first step looks at the cached version, so every other step
      behaves the same on the stats it meets as on the initial ones. */
  lemma LaterStepsIgnoreVersion(s: Stats, a: Answers, n: nat)
    requires 0 < n < |Plan|
    ensures Plan[n] != Ask(Version)
    ensures QueriesOf(Plan[n], Upto(s, a, n).stats) == QueriesOf(Plan[n], s)
    ensures ErrorsOf(Plan[n], Upto(s, a, n).stats, a) == ErrorsOf(Plan[n], s, a)
    ensures StepSafe(Plan[n], Upto(s, a, n).stats, a) == StepSafe(Plan[n], s, a)
  {
    PlanWritesTable(n);
  }

  /** An escaped exception ends the run: nothing after it changes anything. */
  lemma {:induction false} RaisedStays(s: Stats, a: Answers, n: nat, m: nat)
    requires n <= m <= |Plan|
    ensures Upto(s, a, n).raised.Some? ==> Upto(s, a, m) == Upto(s, a, n)
    decreases m
  {
    if m > n {
      RaisedStays(s, a, n, m - 1);
    }
  }

  /** The run gets through the first `n` steps exactly when they are all safe. */
  lemma {:induction false} SafeUptoRuns(s: Stats, a: Answers, n: nat)
    requires n <= |Plan|
    ensures Upto(s, a, n).raised.None? <==> SafeUpto(s, a, n)
  {
    if n > 0 {
      SafeUptoRuns(s, a, n - 1);
      if n > 1 {
        LaterStepsIgnoreVersion(s, a, n - 1);
      }
    }
  }

  /** The queries issued are a prefix of the planned ones, all of them when
      nothing escapes; and an earlier trace is a prefix of a later one. */
  lemma {:induction false} TraceFollowsIssued(s: Stats, a: Answers, n: nat)
    requires n <= |Plan|
    ensures Upto(s, a, n).trace <= Issued(s, n)
    ensures Upto(s, a, n).raised.None? ==> Upto(s, a, n).trace == Issued(s, n)
  {
    if n > 0 {
      TraceFollowsIssued(s, a, n - 1);
      if n > 1 {
        LaterStepsIgnoreVersion(s, a, n - 1);
      }
    }
  }

  /** Earlier traces are prefixes of later ones. */
  lemma {:induction false} TraceGrows(s: Stats, a: Answers, n: nat, m: nat)
    requires n <= m <= |Plan|
    ensures Upto(s, a, n).trace <= Upto(s, a, m).trace
    decreases m
  {
    if m > n {
      TraceGrows(s, a, n, m - 1);
    }
  }

  /** Each query failing with `OperationalError` is logged once, in order. */
  lemma {:induction false} LogFollowsLogged(s: Stats, a: Answers, n: nat)
    requires n <= |Plan|
    ensures Upto(s, a, n).log <= Logged(s, a, n)
    ensures Upto(s, a, n).raised.None? ==> Upto(s, a, n).log == Logged(s, a, n)
  {
    if n > 0 {
      LogFollowsLogged(s, a, n - 1);
      if n > 1 {
        LaterStepsIgnoreVersion(s, a, n - 1);
      }
    }
  }

  /** An escaped exception comes from the last query issued. */
  lemma {:induction false} RaiserIsLast(s: Stats, a: Answers, n: nat)
    requires n <= |Plan|
    ensures EndsAtRaiser(Upto(s, a, n))
  {
    if n > 0 {
      RaiserIsLast(s, a, n - 1);
    }
  }

  /** Steps `n` to `m` leave every stat they do not write alone. */
  lemma {:induction false} Untouched(s: Stats, a: Answers, n: nat, m: nat, name: StatName)
    requires n <= m <= |Plan|
    requires Position(name) < n || m <= Position(name)
    ensures Attr(Upto(s, a, m).stats, name) == Attr(Upto(s, a, n).stats, name)
    decreases m
  {
    if m > n {
      Untouched(s, a, n, m - 1, name);
      PlanWritesTable(m - 1);
    }
  }

  /** The first `m` steps leave every stat they do not write at its initial value. */
  lemma UntouchedFromStart(s: Stats, a: Answers, m: nat, name: StatName)
    requires m <= |Plan| && m <= Position(name)
    ensures Attr(Upto(s, a, m).stats, name) == Attr(s, name)
  {
    Untouched(s, a, 0, m, name);
  }

  /** A run that completes got through every prefix of the plan. */
  lemma CompletedBefore(s: Stats, a: Answers, n: nat)
    requires n <= |Plan|
    requires Collect(s, a).raised.None?
    ensures Upto(s, a, n).raised.None?
  {
    RaisedStays(s, a, n, |Plan|);
  }

  /** When nothing escapes, every prefix of the run completes. */
  lemma CompletesThroughout(s: Stats, a: Answers, n: nat)
    requires n <= |Plan|
    requires NoEscape(s, a)
    ensures Upto(s, a, n).raised.None?
  {
    SafeUptoRuns(s, a, |Plan|);
    NoEscapeIsSafe(s, a);
    CompletedBefore(s, a, n);
  }

  // The plan against its independent descriptions.

  /** The queries of the whole plan are the schedule. */
  lemma IssuedIsSchedule(s: Stats)
    ensures Issued(s, |Plan|) == Schedule(s)
  {
    var v := if s.version.None? then [Query(Version)] else [];
    assert Issued(s, 1) == v;
    assert Issued(s, 2) == v + [Query(MaxConnections)];
    assert Issued(s, 3) == Issued(s, 2) + [Query(CurrentConnections)];
    assert Issued(s, 4) == Issued(s, 3);
    assert Issued(s, 5) == Issued(s, 4) + [Query(Locks)];
    assert Issued(s, 6) == Issued(s, 5) + [Query(LogFile)];
    assert Issued(s, 7) == Issued(s, 6) + [Query(ConnectedSlaves)];
    assert Issued(s, 8) == Issued(s, 7) + [Query(SlaveLag)];
  }

  /** The errors of the whole plan are one per failed probe, the lock probe excepted. */
  lemma LoggedIsIsolatedLog(s: Stats, a: Answers)
    ensures Logged(s, a, |Plan|) == IsolatedLog(s, a)
  {
    LoggedUpToLocks(s, a);
    assert Logged(s, a, 6) == Logged(s, a, 5) + (if a.logFile.OpError? then [QueryError(LogFile)] else []);
    assert Logged(s, a, 7) == Logged(s, a, 6) + (if a.connectedSlaves.OpError? then [QueryError(ConnectedSlaves)] else []);
  }

  /** The errors of the steps before the lock probe. */
  lemma LoggedUpToLocks(s: Stats, a: Answers)
    ensures Logged(s, a, 5) ==
      (if s.version.None? && a.version.OpError? then [QueryError(Version)] else [])
      + (if a.maxConnections.OpError? then [QueryError(MaxConnections)] else [])
      + (if a.currentConnections.OpError? then [QueryError(CurrentConnections)] else [])
  {
    assert Logged(s, a, 1) == (if s.version.None? && a.version.OpError? then [QueryError(Version)] else []);
    assert Logged(s, a, 2) == Logged(s, a, 1) + (if a.maxConnections.OpError? then [QueryError(MaxConnections)] else []);
    assert Logged(s, a, 4) == Logged(s, a, 3);
  }

  /** Every step is safe exactly when no answer raises past its handler. */
  lemma NoEscapeIsSafe(s: Stats, a: Answers)
    ensures SafeUpto(s, a, |Plan|) <==> NoEscape(s, a)
  {
    assert SafeUpto(s, a, 1) <==> StepSafe(Ask(Version), s, a);
    assert SafeUpto(s, a, 2) <==> SafeUpto(s, a, 1) && StepSafe(Ask(MaxConnections), s, a);
    assert SafeUpto(s, a, 3) <==> SafeUpto(s, a, 2) && StepSafe(Ask(CurrentConnections), s, a);
    assert SafeUpto(s, a, 4) <==> SafeUpto(s, a, 3);
    assert SafeUpto(s, a, 5) <==> SafeUpto(s, a, 4) && StepSafe(Ask(Locks), s, a);
    assert SafeUpto(s, a, 6) <==> SafeUpto(s, a, 5) && StepSafe(Ask(LogFile), s, a);
    assert SafeUpto(s, a, 7) <==> SafeUpto(s, a, 6) && StepSafe(Ask(ConnectedSlaves), s, a);
    assert SafeUpto(s, a, 8) <==>
      && StepSafe(Ask(Version), s, a)
      && StepSafe(Ask(MaxConnections), s, a)
      && StepSafe(Ask(CurrentConnections), s, a)
      && StepSafe(Ask(Locks), s, a)
      && StepSafe(Ask(LogFile), s, a)
      && StepSafe(Ask(ConnectedSlaves), s, a)
      && StepSafe(Ask(SlaveLag), s, a);
  }

  // Properties of the whole probe sequence.

  /** Probe isolation: when nothing escapes, every query is issued, each stat
      is set from its own query alone (kept on an `OperationalError`, the log
      list emptied), and each failure is logged once; and something escapes
      exactly when the answers allow it. */
  lemma CollectIsolation(s: Stats, a: Answers)
    ensures Collect(s, a).raised.None? <==> NoEscape(s, a)
    ensures NoEscape(s, a) ==>
      && Collect(s, a).stats == Isolated(s, a)
      && Collect(s, a).trace == Schedule(s)
      && Collect(s, a).log == IsolatedLog(s, a)
  {
    SafeUptoRuns(s, a, |Plan|);
    NoEscapeIsSafe(s, a);
    TraceFollowsIssued(s, a, |Plan|);
    IssuedIsSchedule(s);
    LogFollowsLogged(s, a, |Plan|);
    LoggedIsIsolatedLog(s, a);
    if NoEscape(s, a) {
      IsolatedStats(s, a);
    }
  }

  /** An integer stat, seen through `getattr`. */
  lemma IntAttr(st: Stats, p: Probe)
    requires IsIntProbe(p)
    ensures Attr(st, StatOf(Ask(p))) == FromInt(IntStat(st, p))
  {
  }

  /** A run that completes leaves in each integer stat what its own query
      settles it to from the prior value. */
  lemma {:induction false} IntStepSettles(s: Stats, a: Answers, i: nat)
    requires i < |Plan| && Plan[i].Ask? && IsIntProbe(Plan[i].probe)
    requires Collect(s, a).raised.None?
    ensures IntStat(Collect(s, a).stats, Plan[i].probe) == Settled(IntStat(s, Plan[i].probe), IntAnswer(a, Plan[i].probe))
  {
    var p := Plan[i].probe;
    PlanWritesTable(i);
    CompletedBefore(s, a, i);
    UntouchedFromStart(s, a, i, StatOf(Ask(p)));
    Untouched(s, a, i + 1, |Plan|, StatOf(Ask(p)));
    IntAttr(s, p);
    IntAttr(Upto(s, a, i).stats, p);
    IntAttr(Upto(s, a, i + 1).stats, p);
    IntAttr(Collect(s, a).stats, p);
  }

  /** Without escapes, the probes leave the field-by-field isolated stats. */
  lemma IsolatedStats(s: Stats, a: Answers)
    requires NoEscape(s, a)
    ensures Collect(s, a).raised.None?
    ensures Collect(s, a).stats == Isolated(s, a)
  {
    CompletesThroughout(s, a, |Plan|);
    var r := Collect(s, a).stats;
    var iso := Isolated(s, a);
    IntStepSettles(s, a, 1);
    IntStepSettles(s, a, 2);
    IntStepSettles(s, a, 6);
    IntStepSettles(s, a, 7);
    assert r.maxConnections == iso.maxConnections;
    assert r.currentConnections == iso.currentConnections;
    assert r.connectedSlaves == iso.connectedSlaves;
    assert r.slaveLag == iso.slaveLag;
    IsolatedVersion(s, a);
    IsolatedPercent(s, a);
    IsolatedLocks(s, a);
    IsolatedLogFile(s, a);
  }

  /** Without escapes, an unset version takes the banner's token and a cached one stays. */
  lemma IsolatedVersion(s: Stats, a: Answers)
    requires NoEscape(s, a)
    ensures Collect(s, a).stats.version ==
      if s.version.None? && a.version.Ok? then VersionToken(a.version.value.cell) else s.version
  {
    Untouched(s, a, 1, |Plan|, PostgresVersion);
  }

  /** Without escapes, the percentage is the isolated one. */
  lemma IsolatedPercent(s: Stats, a: Answers)
    requires NoEscape(s, a)
    ensures Collect(s, a).stats.connectionsPercent == Isolated(s, a).connectionsPercent
  {
    CompletesThroughout(s, a, |Plan|);
    IntStepSettles(s, a, 1);
    IntStepSettles(s, a, 2);
    PercentSettles(s, a);
  }

  /** A run that completes derives the percentage from the counts it leaves
      behind, starting from the prior percentage. */
  lemma PercentSettles(s: Stats, a: Answers)
    requires Collect(s, a).raised.None?
    ensures
      var r := Collect(s, a).stats;
      r.connectionsPercent == DerivePercent(r.(connectionsPercent := s.connectionsPercent)).connectionsPercent
  {
    CompletedBefore(s, a, 3);
    PercentAfterCounts(s, a);
  }

  /** Once the two count probes are passed, the percentage is derived from the final counts. */
  lemma PercentAfterCounts(s: Stats, a: Answers)
    requires Upto(s, a, 3).raised.None?
    ensures
      var r := Collect(s, a).stats;
      r.connectionsPercent == DerivePercent(r.(connectionsPercent := s.connectionsPercent)).connectionsPercent
  {
    var r := Collect(s, a).stats;
    Untouched(s, a, 3, |Plan|, PostgresMaxConnections);
    Untouched(s, a, 3, |Plan|, PostgresCurrentConnections);
    UntouchedFromStart(s, a, 3, PostgresConnectionsPercent);
    Untouched(s, a, 4, |Plan|, PostgresConnectionsPercent);
    DerivedFromCounts(Upto(s, a, 3).stats, r.(connectionsPercent := s.connectionsPercent));
  }

  /** An escape before the derivation keeps the prior percentage. */
  lemma PercentKeptOnEarlyEscape(s: Stats, a: Answers)
    requires Upto(s, a, 3).raised.Some?
    ensures Collect(s, a).stats.connectionsPercent == s.connectionsPercent
  {
    RaisedStays(s, a, 3, |Plan|);
    UntouchedFromStart(s, a, 3, PostgresConnectionsPercent);
  }

  /** Without escapes, the lock stat is the fetched rows. */
  lemma IsolatedLocks(s: Stats, a: Answers)
    requires NoEscape(s, a)
    ensures Collect(s, a).stats.locks == Some(a.locks.value)
  {
    CompletesThroughout(s, a, 4);
    Untouched(s, a, 5, |Plan|, PostgresLocks);
  }

  /** Without escapes, the log-settings stat is the fetched rows, or empty after an `OperationalError`. */
  lemma IsolatedLogFile(s: Stats, a: Answers)
    requires NoEscape(s, a)
    ensures Collect(s, a).stats.logFile == Some(if a.logFile.Ok? then a.logFile.value else [])
  {
    CompletesThroughout(s, a, 5);
    Untouched(s, a, 6, |Plan|, PostgresLogFile);
  }

  /** The probes run in order, each at most once: the queries issued are a
      prefix of the schedule, all of it when nothing escapes, and an escape
      ends the run right after the query that raised it. */
  lemma CollectFollowsSchedule(s: Stats, a: Answers)
    ensures Collect(s, a).trace <= Schedule(s)
    ensures Collect(s, a).raised.None? ==> Collect(s, a).trace == Schedule(s)
    ensures Collect(s, a).raised.Some? ==>
      && |Collect(s, a).trace| > 0
      && RaisedBy(Collect(s, a).raised.value).Some?
      && Collect(s, a).trace[|Collect(s, a).trace| - 1] == Query(RaisedBy(Collect(s, a).raised.value).value)
  {
    TraceFollowsIssued(s, a, |Plan|);
    IssuedIsSchedule(s);
    RaiserIsLast(s, a, |Plan|);
  }

  /** The version is cached: it is queried only while unset; once set it is
      never changed; a fetched banner yields its second space-separated field. */
  lemma CollectVersion(s: Stats, a: Answers)
    ensures Query(Version) in Collect(s, a).trace <==> s.version.None?
    ensures s.version.Some? ==> Collect(s, a).stats.version == s.version
    ensures s.version.None? && a.version.Ok? && a.version.value.Row? ==>
      Collect(s, a).stats.version == VersionToken(a.version.value.cell)
  {
    Untouched(s, a, 1, |Plan|, PostgresVersion);
    if s.version.None? {
      VersionQueriedFirst(s, a);
    } else {
      VersionNotQueried(s, a);
    }
  }

  /** Without a cached version, the version query is the first one. */
  lemma VersionQueriedFirst(s: Stats, a: Answers)
    requires s.version.None?
    ensures |Collect(s, a).trace| > 0 && Collect(s, a).trace[0] == Query(Version)
  {
    assert Upto(s, a, 1).trace == [Query(Version)];
    TraceGrows(s, a, 1, |Plan|);
  }

  /** With a cached version, the version query is never issued. */
  lemma VersionNotQueried(s: Stats, a: Answers)
    requires s.version.Some?
    ensures Query(Version) !in Collect(s, a).trace
  {
    assert Collect(s, a).trace <= Schedule(s) by {
      TraceFollowsIssued(s, a, |Plan|);
      IssuedIsSchedule(s);
    }
    PrefixKeepsOut(Collect(s, a).trace, Schedule(s), Query(Version));
  }

  /** The answers up to the lock query let the run reach it. */
  predicate ReachesLocks(s: Stats, a: Answers) {
    && (s.version.None? ==> a.version.OpError? || (a.version.Ok? && a.version.value.Row? && ' ' in a.version.value.cell))
    && IntSafe(a.maxConnections) && IntSafe(a.currentConnections)
  }

  /** The broken locks handler: an `OperationalError` from the lock query
      escapes as a `TypeError`, unlogged, after the lock list was emptied; the
      probes after it never run and their stats keep their prior values. */
  lemma LocksErrorEscapes(s: Stats, a: Answers)
    requires ReachesLocks(s, a)
    requires a.locks.OpError?
    ensures Collect(s, a).raised == Some(LocksHandlerTypeError)
    ensures Collect(s, a).stats.locks == Some([])
    ensures Collect(s, a).stats.logFile == s.logFile
    ensures Collect(s, a).stats.connectedSlaves == s.connectedSlaves
    ensures Collect(s, a).stats.slaveLag == s.slaveLag
    ensures QueryError(Locks) !in Collect(s, a).log
    ensures Query(LogFile) !in Collect(s, a).trace
    ensures Query(ConnectedSlaves) !in Collect(s, a).trace
    ensures Query(SlaveLag) !in Collect(s, a).trace
  {
    LocksErrorStops(s, a);
    LocksErrorKeepsLaterStats(s, a);
    LocksErrorUnlogged(s, a);
    LocksErrorLastQuery(s, a);
  }

  /** The lock step itself on an `OperationalError`: it empties the list, issues its query, logs nothing and raises. */
  lemma LocksErrorStep(s: Stats, a: Answers)
    requires ReachesLocks(s, a)
    requires a.locks.OpError?
    ensures Upto(s, a, 4).raised.None?
    ensures Upto(s, a, 5).raised == Some(LocksHandlerTypeError)
    ensures Upto(s, a, 5).stats.locks == Some([])
    ensures Upto(s, a, 5).log == Upto(s, a, 4).log
    ensures Upto(s, a, 5).trace == Upto(s, a, 4).trace + [Query(Locks)]
  {
    assert SafeUpto(s, a, 4) by {
      assert SafeUpto(s, a, 0);
      assert SafeUpto(s, a, 1);
      assert SafeUpto(s, a, 2);
      assert SafeUpto(s, a, 3);
    }
    SafeUptoRuns(s, a, 4);
  }

  /** After the lock escape the state is the one the lock step left. */
  lemma LocksErrorStops(s: Stats, a: Answers)
    requires ReachesLocks(s, a)
    requires a.locks.OpError?
    ensures Collect(s, a) == Upto(s, a, 5)
    ensures Collect(s, a).raised == Some(LocksHandlerTypeError)
    ensures Collect(s, a).stats.locks == Some([])
  {
    LocksErrorStep(s, a);
    RaisedStays(s, a, 5, |Plan|);
  }

  /** After the lock escape the stats of the later probes keep their prior values. */
  lemma LocksErrorKeepsLaterStats(s: Stats, a: Answers)
    requires ReachesLocks(s, a)
    requires a.locks.OpError?
    ensures Collect(s, a).stats.logFile == s.logFile
    ensures Collect(s, a).stats.connectedSlaves == s.connectedSlaves
    ensures Collect(s, a).stats.slaveLag == s.slaveLag
  {
    LocksErrorStops(s, a);
    UntouchedFromStart(s, a, 5, PostgresLogFile);
    UntouchedFromStart(s, a, 5, PostgresConnectedSlaves);
    UntouchedFromStart(s, a, 5, PostgresSlaveLag);
  }

  /** After the lock escape no lock error has been logged. */
  lemma LocksErrorUnlogged(s: Stats, a: Answers)
    requires ReachesLocks(s, a)
    requires a.locks.OpError?
    ensures QueryError(Locks) !in Collect(s, a).log
  {
    LogFollowsLogged(s, a, |Plan|);
    LocksNeverLogged(s, a, |Plan|);
    PrefixKeepsOut(Collect(s, a).log, Logged(s, a, |Plan|), QueryError(Locks));
  }

  /** After the lock escape none of the later queries has been issued. */
  lemma LocksErrorLastQuery(s: Stats, a: Answers)
    requires ReachesLocks(s, a)
    requires a.locks.OpError?
    ensures Query(LogFile) !in Collect(s, a).trace
    ensures Query(ConnectedSlaves) !in Collect(s, a).trace
    ensures Query(SlaveLag) !in Collect(s, a).trace
  {
    LocksErrorStops(s, a);
    TraceFollowsIssued(s, a, 5);
    IssuedBeforeLogFile(s);
    var t := Collect(s, a).trace;
    PrefixKeepsOut(t, Issued(s, 5), Query(LogFile));
    PrefixKeepsOut(t, Issued(s, 5), Query(ConnectedSlaves));
    PrefixKeepsOut(t, Issued(s, 5), Query(SlaveLag));
  }

  /** Nothing missing from a sequence is in a prefix of it. */
  lemma PrefixKeepsOut<T>(t: seq<T>, u: seq<T>, x: T)
    requires t <= u && x !in u
    ensures x !in t
  {
    assert t == u[..|t|];
  }

  /** The lock query is never logged: its handler raises instead. */
  lemma {:induction false} LocksNeverLogged(s: Stats, a: Answers, n: nat)
    requires n <= |Plan|
    ensures QueryError(Locks) !in Logged(s, a, n)
  {
    if n > 0 {
      LocksNeverLogged(s, a, n - 1);
    }
  }

  /** The probes log nothing but query errors. */
  lemma {:induction false} OnlyQueryErrorsLogged(s: Stats, a: Answers, n: nat)
    requires n <= |Plan|
    ensures forall e :: e in Logged(s, a, n) ==> e.QueryError?
  {
    if n > 0 {
      OnlyQueryErrorsLogged(s, a, n - 1);
    }
  }

  /** The first five steps query neither the log settings nor the replication state. */
  lemma IssuedBeforeLogFile(s: Stats)
    ensures Query(LogFile) !in Issued(s, 5)
    ensures Query(ConnectedSlaves) !in Issued(s, 5)
    ensures Query(SlaveLag) !in Issued(s, 5)
  {
    var v := if s.version.None? then [Query(Version)] else [];
    assert Issued(s, 1) == v;
    assert Issued(s, 2) == v + [Query(MaxConnections)];
    assert Issued(s, 3) == Issued(s, 2) + [Query(CurrentConnections)];
    assert Issued(s, 4) == Issued(s, 3);
    assert Issued(s, 5) == v + [Query(MaxConnections)] + [Query(CurrentConnections)] + [Query(Locks)];
  }

  /** The percentage changes only by derivation from the two counts the run
      leaves behind, when both are truthy, and is then `100 * current / max`. */
  lemma PercentFollowsCounts(s: Stats, a: Answers)
    ensures Collect(s, a).stats.connectionsPercent != s.connectionsPercent ==>
      var r := Collect(s, a).stats;
      && TruthyInt(r.maxConnections) && TruthyInt(r.currentConnections)
      && r.connectionsPercent == Some(PercentOf(r.currentConnections.value, r.maxConnections.value))
  {
    if Upto(s, a, 3).raised.Some? {
      PercentKeptOnEarlyEscape(s, a);
    } else {
      PercentAfterCounts(s, a);
    }
  }

  /** A failed integer query leaves its stat as it was, whatever else happens. */
  lemma FailedIntKeeps(s: Stats, a: Answers, i: nat)
    requires i < |Plan| && Plan[i].Ask? && IsIntProbe(Plan[i].probe)
    requires IntAnswer(a, Plan[i].probe).OpError?
    ensures IntStat(Collect(s, a).stats, Plan[i].probe) == IntStat(s, Plan[i].probe)
  {
    var p := Plan[i].probe;
    PlanWritesTable(i);
    UntouchedFromStart(s, a, i, StatOf(Ask(p)));
    Untouched(s, a, i + 1, |Plan|, StatOf(Ask(p)));
    IntAttr(s, p);
    IntAttr(Upto(s, a, i).stats, p);
    IntAttr(Upto(s, a, i + 1).stats, p);
    IntAttr(Collect(s, a).stats, p);
  }

  /** An integer probe that is reached and fetches a row leaves its cell in
      the stat, whatever the later probes do. */
  lemma FetchedIntStays(s: Stats, a: Answers, i: nat)
    requires i < |Plan| && Plan[i].Ask? && IsIntProbe(Plan[i].probe)
    requires Upto(s, a, i).raised.None?
    requires IntAnswer(a, Plan[i].probe).Ok? && IntAnswer(a, Plan[i].probe).value.Row?
    ensures IntStat(Collect(s, a).stats, Plan[i].probe) == IntAnswer(a, Plan[i].probe).value.cell
  {
    var p := Plan[i].probe;
    PlanWritesTable(i);
    Untouched(s, a, i + 1, |Plan|, StatOf(Ask(p)));
    IntAttr(Upto(s, a, i + 1).stats, p);
    IntAttr(Collect(s, a).stats, p);
  }

  /** A fetched max-connections count stays on the stats once the version
      probe is passed, even when a later probe escapes. */
  lemma MaxFetchedStays(s: Stats, a: Answers)
    requires StepSafe(Ask(Version), s, a)
    requires a.maxConnections.Ok? && a.maxConnections.value.Row?
    ensures Collect(s, a).stats.maxConnections == a.maxConnections.value.cell
  {
    assert Upto(s, a, 0).raised.None?;
    assert Upto(s, a, 1).raised.None?;
    FetchedIntStays(s, a, 1);
  }

  /** A version banner without a space, fetched while no version is cached,
      makes the probes raise `IndexError` from `split(' ')[1]`, after the
      version query alone. */
  lemma SpacelessBannerEscapes(s: Stats, a: Answers)
    requires s.version.None?
    requires a.version.Ok? && a.version.value.Row? && ' ' !in a.version.value.cell
    ensures Collect(s, a).raised == Some(VersionIndexError)
    ensures Collect(s, a).trace == [Query(Version)]
  {
    assert Upto(s, a, 1).raised == Some(VersionIndexError);
    RaisedStays(s, a, 1, |Plan|);
  }
}

=== FILE: config.dfy ===
/** Configuration handling of the plugin: copying the `[PostgreSQL]` section
    into `agent_config`, checking the required keys, and defaulting the port. */
module Config {

  import opened PyValues
  import opened Events

  /** One entry of the configuration table: the key in the config file, the
      name it is stored under in `agent_config`, and whether it is required. */
  datatype Param = Param(key: string, name: string, required: bool)

  /** The configuration table, in declaration order. */
  const ConfigParams: seq<Param> := [
    Param("postgres_database", "PostgreSQLDatabase", true),
    Param("postgres_user", "PostgreSQLUser", true),
    Param("postgres_pass", "PostgreSQLPassword", false),
    Param("postgres_host", "PostgreSQLHost", true),
    Param("postgres_port", "PostgreSQLPort", false)
  ]

  const SectionName: string := "PostgreSQL"
  const PortName: string := "PostgreSQLPort"
  const DefaultPortNumber: int := 5432

  /** The raw configuration: sections of key/value strings, by section name. */
  type RawConfig = map<string, map<string, string>>

  /** The plugin's slice of the agent's configuration. */
  type AgentConfig = map<string, PyVal>

  /** `raw_config.get('PostgreSQL', False)` is truthy: present and non-empty. */
  predicate SectionPresent(raw: RawConfig) {
    SectionName in raw && raw[SectionName] != map[]
  }

  /** `section.get(key, None)`. */
  function SectionValue(section: map<string, string>, key: string): PyVal
  {
    if key in section then PyStr(section[key]) else PyNone
  }

  ghost predicate DistinctNames(params: seq<Param>) {
    forall i, j :: 0 <= i < j < |params| ==> params[i].name != params[j].name
  }

  ghost predicate IsParamName(params: seq<Param>, k: string) {
    exists i :: 0 <= i < |params| && params[i].name == k
  }

  /** The copy loop: for each parameter, in order, store the section's value
      for its key (or `None`) under its internal name. */
  function CopyParams(cfg: AgentConfig, section: map<string, string>, params: seq<Param>): (r: AgentConfig)
    requires DistinctNames(params)
    ensures forall i :: 0 <= i < |params| ==>
      params[i].name in r && r[params[i].name] == SectionValue(section, params[i].key)
    ensures forall k :: k in r <==> k in cfg || IsParamName(params, k)
    ensures forall k :: k in cfg && !IsParamName(params, k) ==> r[k] == cfg[k]
    decreases |params|
  {
    if params == [] then cfg
    else
      var p := params[0];
      var r := CopyParams(cfg[p.name := SectionValue(section, p.key)], section, params[1..]);
      ParamNamesOfRest(params);
      assert forall i :: 0 < i < |params| ==> params[i] == params[1..][i - 1];
      r
  }

  /** The names of a table are its first name and the names of the rest. */
  lemma ParamNamesOfRest(params: seq<Param>)
    requires |params| > 0
    ensures forall k :: IsParamName(params, k) <==> k == params[0].name || IsParamName(params[1..], k)
  {
    forall k | IsParamName(params, k) && k != params[0].name
      ensures IsParamName(params[1..], k)
    {
      var i :| 0 <= i < |params| && params[i].name == k;
      assert params[1..][i - 1].name == k;
    }
    forall k | IsParamName(params[1..], k)
      ensures IsParamName(params, k)
    {
      var i :| 0 <= i < |params[1..]| && params[1..][i].name == k;
      assert params[i + 1].name == k;
    }
  }

  lemma ConfigNamesDistinct()
    ensures DistinctNames(ConfigParams)
  {
  }

  /** The config-loading half of the constructor: when the section is
      truthy, every one of the five internal names is overwritten; otherwise
      `agent_config` is untouched and only a debug message is logged. */
  function Load(cfg: AgentConfig, raw: RawConfig): (r: (AgentConfig, seq<LogEvent>))
    ensures SectionPresent(raw) ==> r.1 == []
    ensures SectionPresent(raw) ==> forall i :: 0 <= i < |ConfigParams| ==>
      Get(r.0, ConfigParams[i].name) == SectionValue(raw[SectionName], ConfigParams[i].key)
    ensures SectionPresent(raw) ==> forall k :: k in cfg && !IsParamName(ConfigParams, k) ==>
      k in r.0 && r.0[k] == cfg[k]
    ensures SectionPresent(raw) ==> forall k :: k in r.0 ==> k in cfg || IsParamName(ConfigParams, k)
    ensures !SectionPresent(raw) ==> r.0 == cfg && r.1 == [ConfigSectionMissing]
  {
    if SectionPresent(raw) then
      ConfigNamesDistinct();
      var copied := CopyParams(cfg, raw[SectionName], ConfigParams);
      assert forall i :: 0 <= i < |ConfigParams| ==> ConfigParams[i].name in copied;
      (copied, [])
    else
      (cfg, [ConfigSectionMissing])
  }

  /** The validation loop: the config key of the first required parameter,
      in table order, whose value is falsy, or `None` when all are truthy. */
  function FirstMissing(params: seq<Param>, cfg: AgentConfig): (r: Option<string>)
    ensures r.None? <==> forall i :: 0 <= i < |params| && params[i].required ==> Truthy(Get(cfg, params[i].name))
    ensures r.Some? ==> exists i :: (0 <= i < |params| && params[i].key == r.value
      && params[i].required && !Truthy(Get(cfg, params[i].name))
      && forall j :: 0 <= j < i && params[j].required ==> Truthy(Get(cfg, params[j].name)))
    decreases |params|
  {
    if params == [] then None
    else if params[0].required && !Truthy(Get(cfg, params[0].name)) then Some(params[0].key)
    else
      var r := FirstMissing(params[1..], cfg);
      assert forall i :: 0 < i < |params| ==> params[i] == params[1..][i - 1];
      if r.Some? then
        var i :| 0 <= i < |params[1..]| && params[1..][i].key == r.value
          && params[1..][i].required && !Truthy(Get(cfg, params[1..][i].name))
          && forall j :: 0 <= j < i && params[1..][j].required ==> Truthy(Get(cfg, params[1..][j].name));
        assert params[i + 1].key == r.value;
        r
      else r
  }

  /** The three required values, named directly rather than through the table. */
  predicate RequiredPresent(cfg: AgentConfig) {
    && Truthy(Get(cfg, "PostgreSQLDatabase"))
    && Truthy(Get(cfg, "PostgreSQLUser"))
    && Truthy(Get(cfg, "PostgreSQLHost"))
  }

  /** Validation against the configuration table rejects a configuration
      exactly when a required value is falsy; it names database before user
      before host, and never the password or port keys. */
  lemma {:induction false} ValidationNamesFirstRequired(cfg: AgentConfig)
    ensures FirstMissing(ConfigParams, cfg).None? <==> RequiredPresent(cfg)
    ensures FirstMissing(ConfigParams, cfg) ==
      if !Truthy(Get(cfg, "PostgreSQLDatabase")) then Some("postgres_database")
      else if !Truthy(Get(cfg, "PostgreSQLUser")) then Some("postgres_user")
      else if !Truthy(Get(cfg, "PostgreSQLHost")) then Some("postgres_host")
      else None
  {
    var ps := ConfigParams;
    assert ps[1..] == [ps[1], ps[2], ps[3], ps[4]];
    assert ps[1..][1..] == [ps[2], ps[3], ps[4]];
    assert ps[1..][1..][1..] == [ps[3], ps[4]];
    assert ps[1..][1..][1..][1..] == [ps[4]];
    assert ps[1..][1..][1..][1..][1..] == [];
  }

  /** Port defaulting: a falsy `PostgreSQLPort` becomes 5432; a truthy one
      and every other entry are left as they are. */
  function DefaultPort(cfg: AgentConfig): (r: AgentConfig)
    ensures Truthy(Get(r, PortName))
    ensures Truthy(Get(cfg, PortName)) ==> Get(r, PortName) == Get(cfg, PortName)
    ensures !Truthy(Get(cfg, PortName)) ==> Get(r, PortName) == PyInt(DefaultPortNumber)
    ensures forall k :: k != PortName ==> (k in r <==> k in cfg) && Get(r, k) == Get(cfg, k)
    ensures PortName in cfg ==> PortName in r
  {
    if !Truthy(Get(cfg, PortName)) then cfg[PortName := PyInt(DefaultPortNumber)] else cfg
  }

  /** Defaulting twice is the same as defaulting once. */
  lemma DefaultPortIdempotent(cfg: AgentConfig)
    ensures DefaultPort(DefaultPort(cfg)) == DefaultPort(cfg)
  {
  }
}

=== FILE: events.dfy ===
/** What one run of the plugin can emit: log events, database actions and the
    exceptions that escape it. Message texts are not modelled, only which
    event was emitted and at which severity. */
module Events {

  import opened PyValues

  /** The seven queries, in the order the plugin issues them. */
  datatype Probe =
    | Version
    | MaxConnections
    | CurrentConnections
    | Locks
    | LogFile
    | ConnectedSlaves
    | SlaveLag

  /** The logger calls the plugin makes. */
  datatype LogEvent =
    | ConfigSectionMissing
    | ConfigIncomplete(key: string)
    | DriverUnavailable
    | ConnectionError
    | QueryError(probe: Probe)

  datatype Level = Debug | Error

  /** The level each event is logged at: the missing config section at
      debug level, everything else as an error. */
  function Severity(e: LogEvent): Level
  {
    if e.ConfigSectionMissing? then Debug else Error
  }

  /** The arguments handed to the driver's `connect`, read from `agent_config`. */
  datatype ConnectArgs = ConnectArgs(
    database: PyVal,
    user: PyVal,
    password: PyVal,
    port: PyVal,
    host: PyVal)

  /** A round trip to the database server: the connect call or one query. */
  datatype Action = Connect(args: ConnectArgs) | Query(probe: Probe)

  /** Exceptions that escape `run`. The plugin catches only a failed
      `import psycopg2` and the driver's `OperationalError`, so everything
      else propagates to the caller. */
  datatype Exception =
    | NoRowTypeError(at: Probe)   // `fetchone()` gave `None` and was indexed
    | VersionIndexError           // the version string holds no space
    | LocksHandlerTypeError       // the locks handler calls a string
    | ConnectUncaught             // a non-operational error from `connect`
    | Uncaught(at: Probe)         // a non-operational error from a query

  /** The query whose failure an exception reports, if it came from a query. */
  function RaisedBy(e: Exception): Option<Probe> {
    match e
    case NoRowTypeError(p) => Some(p)
    case VersionIndexError => Some(Version)
    case LocksHandlerTypeError => Some(Locks)
    case ConnectUncaught => None
    case Uncaught(p) => Some(p)
  }
}

=== FILE: metrics.dfy ===
/** The eight stat fields the plugin keeps on its instance, and the rows of
    its two list-valued stats. */
module Metrics {

  import opened PyValues

  /** One row of the lock query: granted flag, lock mode, database name. */
  datatype LockRow = LockRow(granted: bool, mode: string, database: string)

  /** One row of the log-settings query: setting name and (server-rendered) value. */
  datatype SettingRow = SettingRow(name: string, setting: string)

  /** The instance's stat attributes; `None` is Python's `None`. */
  datatype Stats = Stats(
    version: Option<string>,
    maxConnections: Option<int>,
    currentConnections: Option<int>,
    connectionsPercent: Option<real>,
    locks: Option<seq<LockRow>>,
    logFile: Option<seq<SettingRow>>,
    connectedSlaves: Option<int>,
    slaveLag: Option<int>)

  /** Every stat attribute is `None`. */
  predicate AllUnset(s: Stats) {
    && s.version.None? && s.maxConnections.None? && s.currentConnections.None?
    && s.connectionsPercent.None? && s.locks.None? && s.logFile.None?
    && s.connectedSlaves.None? && s.slaveLag.None?
  }

  /** The stats of a freshly constructed instance. */
  const Unset: Stats := Stats(None, None, None, None, None, None, None, None)

  /** The derived connection percentage, `100 * current / max`, in exact arithmetic. */
  function PercentOf(current: int, max: int): real
    requires max != 0
  {
    (current as real) / (max as real) * 100.0
  }

  /** The percentage is the share of `max` that `current` makes up, out of 100. */
  lemma PercentIsShare(current: int, max: int)
    requires max != 0
    ensures PercentOf(current, max) * (max as real) == 100.0 * (current as real)
  {
  }

  /** The derivation step: the percentage is recomputed only when both counts
      are truthy (present and non-zero); otherwise every field is kept. */
  function DerivePercent(s: Stats): (r: Stats)
    ensures TruthyInt(s.maxConnections) && TruthyInt(s.currentConnections) ==>
      r.connectionsPercent == Some(PercentOf(s.currentConnections.value, s.maxConnections.value))
    ensures !(TruthyInt(s.maxConnections) && TruthyInt(s.currentConnections)) ==> r == s
    ensures r.(connectionsPercent := s.connectionsPercent) == s
  {
    if TruthyInt(s.maxConnections) && TruthyInt(s.currentConnections) then
      s.(connectionsPercent := Some(PercentOf(s.currentConnections.value, s.maxConnections.value)))
    else s
  }

  /** The derived percentage depends only on the two counts and the prior percentage. */
  lemma DerivedFromCounts(s: Stats, t: Stats)
    requires s.maxConnections == t.maxConnections && s.currentConnections == t.currentConnections
    requires s.connectionsPercent == t.connectionsPercent
    ensures DerivePercent(s).connectionsPercent == DerivePercent(t).connectionsPercent
  {
  }

  /** A quarter of the connections in use gives exactly 25 percent. */
  lemma QuarterIsTwentyFivePercent(s: Stats)
    requires s.maxConnections == Some(100) && s.currentConnections == Some(25)
    ensures DerivePercent(s).connectionsPercent == Some(25.0)
  {
    PercentIsShare(25, 100);
  }

  /** With no max-connections value the percentage keeps its prior value,
      which is `None` on a fresh instance. */
  lemma NoPercentWithoutMax(s: Stats)
    requires s.maxConnections.None?
    ensures DerivePercent(s).connectionsPercent == s.connectionsPercent
  {
  }
}

=== FILE: plugin.dfy ===
/** The plugin object: its constructor and `run`, as a pure transition from
    the instance (configuration and stat attributes) and the server's
    behaviour to the next instance and what `run` returns. */
module PostgresPlugin {

  import opened PyValues
  import opened Events
  import opened Config
  import opened Metrics
  import opened Snapshot
  import opened Collector
  import opened Text

  /** The instance: its `agent_config` and its eight stat attributes. */
  datatype Instance = Instance(agentConfig: AgentConfig, stats: Stats)

  /** Everything `run` learns from outside: whether the driver imports, what
      `connect` does, and the answers to the queries. */
  datatype Oracle = Oracle(driverAvailable: bool, connect: Outcome<()>, answers: Answers)

  /** What `run` hands back: `False`, the stats dictionary, or an exception. */
  datatype RunResult = ReturnedFalse | ReturnedStats(dict: StatsDict) | Raised(exc: Exception)

  /** One call of `run`: the instance afterwards, its result, the database
      actions it performed and the messages it logged. */
  datatype RunStep = RunStep(instance: Instance, result: RunResult, trace: seq<Action>, log: seq<LogEvent>)

  /** The constructor: loads the configuration and resets every stat. */
  function Init(cfg: AgentConfig, raw: RawConfig): (r: (Instance, seq<LogEvent>))
    ensures AllUnset(r.0.stats)
    ensures SectionPresent(raw) ==> r.1 == [] && forall i :: 0 <= i < |ConfigParams| ==>
      Get(r.0.agentConfig, ConfigParams[i].name) == SectionValue(raw[SectionName], ConfigParams[i].key)
    ensures !SectionPresent(raw) ==> r.0.agentConfig == cfg && r.1 == [ConfigSectionMissing]
  {
    var (loaded, log) := Load(cfg, raw);
    (Instance(loaded, Unset), log)
  }

  /** The keyword arguments of the `connect` call. */
  function ConnectArgsOf(cfg: AgentConfig): ConnectArgs {
    ConnectArgs(
      Get(cfg, "PostgreSQLDatabase"),
      Get(cfg, "PostgreSQLUser"),
      Get(cfg, "PostgreSQLPassword"),
      Get(cfg, PortName),
      Get(cfg, "PostgreSQLHost"))
  }

  /** `run`: validate, check the driver, default the port, connect, probe,
      and return the stats dictionary built from the instance's attributes. */
  function Run(inst: Instance, o: Oracle): (r: RunStep)
    ensures r.result.ReturnedStats? ==> r.result.dict == Assemble(r.instance.stats)
    ensures r.trace == [] ==> r.instance == inst && r.result.ReturnedFalse?
    ensures r.trace != [] ==> r.trace[0] == Connect(ConnectArgsOf(r.instance.agentConfig))
  {
    match FirstMissing(ConfigParams, inst.agentConfig)
    case Some(key) => RunStep(inst, ReturnedFalse, [], [ConfigIncomplete(key)])
    case None =>
      if !o.driverAvailable then RunStep(inst, ReturnedFalse, [], [DriverUnavailable])
      else
        var cfg := DefaultPort(inst.agentConfig);
        var connect := [Connect(ConnectArgsOf(cfg))];
        match o.connect
        case OpError => RunStep(Instance(cfg, inst.stats), ReturnedFalse, connect, [ConnectionError])
        case OtherError => RunStep(Instance(cfg, inst.stats), Raised(ConnectUncaught), connect, [])
        case Ok(_) =>
          var c := Collect(inst.stats, o.answers);
          RunStep(
            Instance(cfg, c.stats),
            if c.raised.Some? then Raised(c.raised.value) else ReturnedStats(Assemble(c.stats)),
            connect + c.trace,
            c.log)
  }
}

=== FILE: pyvalues.dfy ===
/** The handful of Python value semantics the plugin relies on: `None`,
    truthiness and `dict.get` with a falsy default. */
module PyValues {

  /** The conventional Some/None datatype; `None` plays Python's `None`
      wherever a stat field or a query cell may be absent. */
  datatype Option<+T> = None | Some(value: T)

  /** A configuration value as it can sit in `agent_config`: copied from the
      config file as a string, missing (`None`), or the integer port default. */
  datatype PyVal = PyNone | PyStr(s: string) | PyInt(i: int)

  /** Python truthiness: `None`, `''` and `0` are false, everything else true. */
  predicate Truthy(v: PyVal) {
    match v
    case PyNone => false
    case PyStr(s) => s != ""
    case PyInt(i) => i != 0
  }

  /** Truthiness of an optional integer stat field (`None` and `0` are false). */
  predicate TruthyInt(v: Option<int>) {
    v.Some? && v.value != 0
  }

  /** `d.get(k)`: the value stored under `k`, or `None` when `k` is missing.
      `d.get(k, False)` differs only in the default, which is just as falsy. */
  function Get(d: map<string, PyVal>, k: string): PyVal
  {
    if k in d then d[k] else PyNone
  }
}

=== FILE: run_properties.dfy ===
/** Properties of `run` as a whole: the gates before the connection, port
    defaulting, probe isolation, the returned dictionary, and what persists on
    the instance from one run to the next. */
module RunProperties {

  import opened PyValues
  import opened Events
  import opened Config
  import opened Metrics
  import opened Snapshot
  import opened Collector
  import opened Text
  import opened PostgresPlugin

  /** The connection is attempted: configuration complete, driver importable. */
  predicate Attempts(inst: Instance, o: Oracle) {
    RequiredPresent(inst.agentConfig) && o.driverAvailable
  }

  /** The connection is made. */
  predicate Connects(inst: Instance, o: Oracle) {
    Attempts(inst, o) && o.connect.Ok?
  }

  /** `run` returns `False` without touching the server exactly when a
      required value is falsy or the driver is missing; a falsy required
      value is reported by key, database before user before host. Nothing
      on the instance changes. */
  lemma RejectedBeforeConnect(inst: Instance, o: Oracle)
    ensures Run(inst, o).trace == [] <==> !Attempts(inst, o)
    ensures !Attempts(inst, o) ==> Run(inst, o).result == ReturnedFalse && Run(inst, o).instance == inst
    ensures !RequiredPresent(inst.agentConfig) ==>
      var cfg := inst.agentConfig;
      Run(inst, o).log == [ConfigIncomplete(
        if !Truthy(Get(cfg, "PostgreSQLDatabase")) then "postgres_database"
        else if !Truthy(Get(cfg, "PostgreSQLUser")) then "postgres_user"
        else "postgres_host")]
    ensures RequiredPresent(inst.agentConfig) && !o.driverAvailable ==> Run(inst, o).log == [DriverUnavailable]
  {
    ValidationNamesFirstRequired(inst.agentConfig);
  }

  /** Any other exception from `connect` escapes `run`: nothing is logged,
      no query runs and no stat changes. */
  lemma ConnectErrorEscapes(inst: Instance, o: Oracle)
    requires Attempts(inst, o) && o.connect.OtherError?
    ensures Run(inst, o).result == Raised(ConnectUncaught)
    ensures Run(inst, o).log == []
    ensures |Run(inst, o).trace| == 1 && Run(inst, o).trace[0].Connect?
    ensures Run(inst, o).instance.stats == inst.stats
  {
    ValidationNamesFirstRequired(inst.agentConfig);
  }

  /** A failed connection returns `False` after the one connect attempt: no
      query runs and no stat changes. */
  lemma ConnectionFailure(inst: Instance, o: Oracle)
    requires Attempts(inst, o) && o.connect.OpError?
    ensures Run(inst, o).result == ReturnedFalse
    ensures Run(inst, o).log == [ConnectionError]
    ensures |Run(inst, o).trace| == 1 && Run(inst, o).trace[0].Connect?
    ensures Run(inst, o).instance.stats == inst.stats
  {
    ValidationNamesFirstRequired(inst.agentConfig);
  }

  /** Once the gates pass, the connection uses the configured values, with
      port 5432 in place of a falsy port; the defaulted port stays in the
      configuration. */
  lemma ConnectsWithDefaultedPort(inst: Instance, o: Oracle)
    requires Attempts(inst, o)
    ensures
      var cfg := inst.agentConfig;
      var port := Get(cfg, PortName);
      Run(inst, o).trace[0] == Connect(ConnectArgs(
        Get(cfg, "PostgreSQLDatabase"),
        Get(cfg, "PostgreSQLUser"),
        Get(cfg, "PostgreSQLPassword"),
        if Truthy(port) then port else PyInt(5432),
        Get(cfg, "PostgreSQLHost")))
    ensures Truthy(Get(Run(inst, o).instance.agentConfig, PortName))
  {
    ValidationNamesFirstRequired(inst.agentConfig);
  }

  /** Port defaulting happens once: a second run leaves the configuration
      the first run produced as it is. */
  lemma PortDefaultedOnce(inst: Instance, o1: Oracle, o2: Oracle)
    requires Attempts(inst, o1)
    ensures Run(Run(inst, o1).instance, o2).instance.agentConfig == Run(inst, o1).instance.agentConfig
  {
    ValidationNamesFirstRequired(inst.agentConfig);
    var cfg := Run(inst, o1).instance.agentConfig;
    assert cfg == DefaultPort(inst.agentConfig);
    assert RequiredPresent(cfg);
    ValidationNamesFirstRequired(cfg);
    DefaultPortIdempotent(inst.agentConfig);
  }

  /** Probe isolation for the whole run: after a connection, `run` raises
      exactly when a query fails with anything but a caught
      `OperationalError` (or the lock query fails at all); otherwise it
      returns the dictionary of the field-by-field isolated stats, after
      issuing every query once, logging one error per failed query. */
  lemma RunIsolation(inst: Instance, o: Oracle)
    requires Connects(inst, o)
    ensures Run(inst, o).result.Raised? <==> !NoEscape(inst.stats, o.answers)
    ensures NoEscape(inst.stats, o.answers) ==>
      && Run(inst, o).instance.stats == Isolated(inst.stats, o.answers)
      && Run(inst, o).result == ReturnedStats(Assemble(Isolated(inst.stats, o.answers)))
      && Run(inst, o).trace == [Connect(ConnectArgsOf(DefaultPort(inst.agentConfig)))] + Schedule(inst.stats)
      && Run(inst, o).log == IsolatedLog(inst.stats, o.answers)
  {
    ValidationNamesFirstRequired(inst.agentConfig);
    CollectIsolation(inst.stats, o.answers);
  }

  /** The returned dictionary holds exactly the stat names, each mapped to
      the instance's attribute as it stands after the run, and nothing else. */
  lemma ReturnedDictionary(inst: Instance, o: Oracle)
    requires Run(inst, o).result.ReturnedStats?
    ensures forall n: StatName :: n in Run(inst, o).result.dict
    ensures Read(Run(inst, o).result.dict) == Some(Run(inst, o).instance.stats)
  {
    ReadAssemble(Run(inst, o).instance.stats);
  }

  /** The lock and log-settings entries of the dictionary are the fetched
      rows in fetch order. */
  lemma ReturnedRowsAsFetched(inst: Instance, o: Oracle)
    requires Connects(inst, o) && NoEscape(inst.stats, o.answers) && o.answers.logFile.Ok?
    ensures Run(inst, o).result.ReturnedStats?
    ensures PostgresLocks in Run(inst, o).result.dict && PostgresLogFile in Run(inst, o).result.dict
    ensures Run(inst, o).result.dict[PostgresLocks] == LockRowsV(o.answers.locks.value)
    ensures Run(inst, o).result.dict[PostgresLogFile] == SettingRowsV(o.answers.logFile.value)
  {
    RunIsolation(inst, o);
    IsolatedRows(inst.stats, o.answers);
  }

  /** The row entries of the dictionary of the isolated stats are the
      fetched rows. */
  lemma IsolatedRows(s: Stats, a: Answers)
    requires NoEscape(s, a) && a.logFile.Ok?
    ensures Assemble(Isolated(s, a))[PostgresLocks] == LockRowsV(a.locks.value)
    ensures Assemble(Isolated(s, a))[PostgresLogFile] == SettingRowsV(a.logFile.value)
  {
    var st := Isolated(s, a);
    assert st.locks == Some(a.locks.value);
    assert st.logFile == Some(a.logFile.value);
    AssembleKeepsRows(st);
  }

  /** The broken lock handler at run level: an `OperationalError` from the
      lock query escapes `run` instead of being logged. */
  lemma LocksErrorEscapesRun(inst: Instance, o: Oracle)
    requires Connects(inst, o)
    requires ReachesLocks(inst.stats, o.answers)
    requires o.answers.locks.OpError?
    ensures Run(inst, o).result == Raised(LocksHandlerTypeError)
    ensures Run(inst, o).instance.stats.locks == Some([])
    ensures Run(inst, o).instance.stats.logFile == inst.stats.logFile
    ensures Query(SlaveLag) !in Run(inst, o).trace
  {
    ValidationNamesFirstRequired(inst.agentConfig);
    LocksErrorEscapes(inst.stats, o.answers);
  }

  /** The version is fetched only while the attribute is `None`. */
  lemma VersionFetchedWhileUnset(inst: Instance, o: Oracle)
    requires Connects(inst, o)
    ensures Query(Version) in Run(inst, o).trace <==> inst.stats.version.None?
    ensures inst.stats.version.None? && o.answers.version.Ok? && o.answers.version.value.Row? ==>
      Run(inst, o).instance.stats.version == VersionToken(o.answers.version.value.cell)
  {
    ValidationNamesFirstRequired(inst.agentConfig);
    CollectVersion(inst.stats, o.answers);
    var c := Collect(inst.stats, o.answers);
    var connect := Connect(ConnectArgsOf(DefaultPort(inst.agentConfig)));
    assert Run(inst, o).trace == [connect] + c.trace;
    assert Query(Version) in Run(inst, o).trace <==> Query(Version) in c.trace;
  }

  /** A run leaves a set version as it is, whatever happens. */
  lemma VersionKept(inst: Instance, o: Oracle)
    requires inst.stats.version.Some?
    ensures Run(inst, o).instance.stats.version == inst.stats.version
  {
    if Connects(inst, o) {
      ValidationNamesFirstRequired(inst.agentConfig);
      CollectVersion(inst.stats, o.answers);
    }
  }

  /** Every message `run` logs is at error level: the incomplete
      configuration, the failed import, the connection error and the query
      errors. */
  lemma RunLogsErrors(inst: Instance, o: Oracle)
    ensures forall e :: e in Run(inst, o).log ==> Severity(e) == Error
  {
    ValidationNamesFirstRequired(inst.agentConfig);
    if Connects(inst, o) {
      var c := Collect(inst.stats, o.answers);
      LogFollowsLogged(inst.stats, o.answers, |Plan|);
      OnlyQueryErrorsLogged(inst.stats, o.answers, |Plan|);
      forall e | e in c.log
        ensures e.QueryError?
      {
        var i :| 0 <= i < |c.log| && c.log[i] == e;
        assert Logged(inst.stats, o.answers, |Plan|)[i] == e;
      }
    }
  }

  /** The only debug-level message is the constructor's, logged exactly when
      the config section is missing or empty. */
  lemma InitLogsDebugOnlyWithoutSection(cfg: AgentConfig, raw: RawConfig)
    ensures (exists e :: e in Init(cfg, raw).1 && Severity(e) == Debug) <==> !SectionPresent(raw)
    ensures forall e :: e in Init(cfg, raw).1 ==> Severity(e) == Debug
  {
    if !SectionPresent(raw) {
      var e := Init(cfg, raw).1[0];
      assert e == ConfigSectionMissing && e in Init(cfg, raw).1 && Severity(e) == Debug;
    }
  }

  /** Runs one after another on the same instance. */
  function RunMany(inst: Instance, os: seq<Oracle>): Instance
    decreases |os|
  {
    if os == [] then inst else RunMany(Run(inst, os[0]).instance, os[1..])
  }

  /** Once the version is known, no later run on the instance changes it. */
  lemma {:induction false} VersionCachedAcrossRuns(inst: Instance, os: seq<Oracle>)
    requires inst.stats.version.Some?
    ensures RunMany(inst, os).stats.version == inst.stats.version
    decreases |os|
  {
    if os != [] {
      VersionKept(inst, os[0]);
      VersionCachedAcrossRuns(Run(inst, os[0]).instance, os[1..]);
    }
  }

  /** The percentage on the instance changes only by derivation from both
      counts, when both are truthy after the run. */
  lemma PercentOnlyFromCounts(inst: Instance, o: Oracle)
    ensures
      var r := Run(inst, o).instance.stats;
      r.connectionsPercent != inst.stats.connectionsPercent ==>
        && TruthyInt(r.maxConnections) && TruthyInt(r.currentConnections)
        && r.connectionsPercent == Some(PercentOf(r.currentConnections.value, r.maxConnections.value))
  {
    ValidationNamesFirstRequired(inst.agentConfig);
    if Connects(inst, o) {
      PercentFollowsCounts(inst.stats, o.answers);
      var r := Collect(inst.stats, o.answers).stats;
      assert Run(inst, o).instance.stats == r;
    } else {
      assert Run(inst, o).instance.stats == inst.stats;
    }
  }

  /** On a fresh instance the percentage stays `None` when the max-connections
      query fails. */
  lemma FreshPercentNeedsMax(inst: Instance, o: Oracle)
    requires AllUnset(inst.stats)
    requires o.answers.maxConnections.OpError?
    ensures Run(inst, o).instance.stats.connectionsPercent.None?
  {
    PercentOnlyFromCounts(inst, o);
    ValidationNamesFirstRequired(inst.agentConfig);
    if Connects(inst, o) {
      MaxConnectionsKeptAfterFailure(inst.stats, o.answers);
      assert Run(inst, o).instance.stats.maxConnections == None;
    }
  }

  /** A failed max-connections query leaves the attribute as it was. */
  lemma MaxConnectionsKeptAfterFailure(s: Stats, a: Answers)
    requires a.maxConnections.OpError?
    ensures Collect(s, a).stats.maxConnections == s.maxConnections
  {
    FailedIntKeeps(s, a, 1);
  }

  /** Stats persist across runs: a value fetched by one run survives a later
      run whose query for it fails with `OperationalError`. The first run
      need only get past the version probe; a later escape does not undo
      the fetch. */
  lemma StatsPersistAcrossRuns(inst: Instance, o1: Oracle, o2: Oracle, m: int)
    requires Connects(inst, o1) && StepSafe(Ask(Version), inst.stats, o1.answers)
    requires o1.answers.maxConnections == Ok(Row(Some(m)))
    requires o2.answers.maxConnections.OpError?
    ensures Run(Run(inst, o1).instance, o2).instance.stats.maxConnections == Some(m)
  {
    ValidationNamesFirstRequired(inst.agentConfig);
    MaxFetchedStays(inst.stats, o1.answers);
    var next := Run(inst, o1).instance;
    assert next.stats == Collect(inst.stats, o1.answers).stats;
    PortDefaultedOnce(inst, o1, o2);
    if Connects(next, o2) {
      MaxConnectionsKeptAfterFailure(next.stats, o2.answers);
    }
  }
}

=== FILE: snapshot.dfy ===
/** The stats dictionary `run` returns: one entry per name of the stat-name
    table, each holding the current value of that attribute. */
module Snapshot {

  import opened PyValues
  import opened Metrics

  /** The names of the stat attributes, which are also the keys of the
      returned dictionary (`postgresVersion`, `postgresMaxConnections`, ...). */
  datatype StatName =
    | PostgresVersion
    | PostgresMaxConnections
    | PostgresCurrentConnections
    | PostgresConnectionsPercent
    | PostgresLocks
    | PostgresLogFile
    | PostgresConnectedSlaves
    | PostgresSlaveLag

  /** The stat-name table, in declaration order. */
  const PluginStats: seq<StatName> := [
    PostgresVersion,
    PostgresMaxConnections,
    PostgresCurrentConnections,
    PostgresConnectionsPercent,
    PostgresLocks,
    PostgresLogFile,
    PostgresConnectedSlaves,
    PostgresSlaveLag
  ]

  /** The dictionary `run` returns. */
  type StatsDict = map<StatName, StatValue>

  /** A value of the returned dictionary. */
  datatype StatValue =
    | NoneV
    | StrV(s: string)
    | IntV(i: int)
    | RealV(x: real)
    | LockRowsV(locks: seq<LockRow>)
    | SettingRowsV(settings: seq<SettingRow>)

  function FromStr(o: Option<string>): StatValue {
    if o.Some? then StrV(o.value) else NoneV
  }

  function FromInt(o: Option<int>): StatValue {
    if o.Some? then IntV(o.value) else NoneV
  }

  function FromReal(o: Option<real>): StatValue {
    if o.Some? then RealV(o.value) else NoneV
  }

  function FromLocks(o: Option<seq<LockRow>>): StatValue {
    if o.Some? then LockRowsV(o.value) else NoneV
  }

  function FromSettings(o: Option<seq<SettingRow>>): StatValue {
    if o.Some? then SettingRowsV(o.value) else NoneV
  }

  /** `getattr(stats, name, None)`. */
  function Attr(s: Stats, name: StatName): StatValue {
    match name
    case PostgresVersion => FromStr(s.version)
    case PostgresMaxConnections => FromInt(s.maxConnections)
    case PostgresCurrentConnections => FromInt(s.currentConnections)
    case PostgresConnectionsPercent => FromReal(s.connectionsPercent)
    case PostgresLocks => FromLocks(s.locks)
    case PostgresLogFile => FromSettings(s.logFile)
    case PostgresConnectedSlaves => FromInt(s.connectedSlaves)
    case PostgresSlaveLag => FromInt(s.slaveLag)
  }

  /** The typed reading of one dictionary entry; `None` when it has the wrong shape. */
  function AsStr(v: StatValue): Option<Option<string>> {
    match v
    case NoneV => Some(None)
    case StrV(x) => Some(Some(x))
    case _ => None
  }

  function AsInt(v: StatValue): Option<Option<int>> {
    match v
    case NoneV => Some(None)
    case IntV(x) => Some(Some(x))
    case _ => None
  }

  function AsReal(v: StatValue): Option<Option<real>> {
    match v
    case NoneV => Some(None)
    case RealV(x) => Some(Some(x))
    case _ => None
  }

  function AsLocks(v: StatValue): Option<Option<seq<LockRow>>> {
    match v
    case NoneV => Some(None)
    case LockRowsV(x) => Some(Some(x))
    case _ => None
  }

  function AsSettings(v: StatValue): Option<Option<seq<SettingRow>>> {
    match v
    case NoneV => Some(None)
    case SettingRowsV(x) => Some(Some(x))
    case _ => None
  }

  /** Reads a returned dictionary back into the eight fields; `None` when a
      key is missing or an entry has the wrong shape. */
  function Read(m: StatsDict): Option<Stats> {
    if forall n: StatName :: n in m then
      var v := AsStr(m[PostgresVersion]);
      var mx := AsInt(m[PostgresMaxConnections]);
      var cur := AsInt(m[PostgresCurrentConnections]);
      var pct := AsReal(m[PostgresConnectionsPercent]);
      var lk := AsLocks(m[PostgresLocks]);
      var lf := AsSettings(m[PostgresLogFile]);
      var sl := AsInt(m[PostgresConnectedSlaves]);
      var lag := AsInt(m[PostgresSlaveLag]);
      if v.Some? && mx.Some? && cur.Some? && pct.Some? && lk.Some? && lf.Some? && sl.Some? && lag.Some? then
        Some(Stats(v.value, mx.value, cur.value, pct.value, lk.value, lf.value, sl.value, lag.value))
      else None
    else None
  }

  /** The returned dictionary: exactly the stat-name keys, from which the
      current attribute values read back unchanged. */
  function Assemble(s: Stats): (m: StatsDict)
    ensures forall n: StatName :: n in m && m[n] == Attr(s, n)
  {
    var m := map n | n in PluginStats :: Attr(s, n);
    assert forall n: StatName :: n in m && m[n] == Attr(s, n) by {
      forall n: StatName ensures n in m && m[n] == Attr(s, n) {
        Listed(n);
      }
    }
    m
  }

  /** Every stat name appears in the table. */
  lemma Listed(n: StatName)
    ensures n in PluginStats
  {
    match n
    case PostgresVersion => assert PluginStats[0] == n;
    case PostgresMaxConnections => assert PluginStats[1] == n;
    case PostgresCurrentConnections => assert PluginStats[2] == n;
    case PostgresConnectionsPercent => assert PluginStats[3] == n;
    case PostgresLocks => assert PluginStats[4] == n;
    case PostgresLogFile => assert PluginStats[5] == n;
    case PostgresConnectedSlaves => assert PluginStats[6] == n;
    case PostgresSlaveLag => assert PluginStats[7] == n;
  }

  /** Where a stat name sits in the table. */
  function Position(n: StatName): (i: nat)
    ensures i < |PluginStats| && PluginStats[i] == n
  {
    match n
    case PostgresVersion => 0
    case PostgresMaxConnections => 1
    case PostgresCurrentConnections => 2
    case PostgresConnectionsPercent => 3
    case PostgresLocks => 4
    case PostgresLogFile => 5
    case PostgresConnectedSlaves => 6
    case PostgresSlaveLag => 7
  }

  /** The returned dictionary reads back as the stats it was assembled from. */
  lemma ReadAssemble(s: Stats)
    ensures Read(Assemble(s)) == Some(s)
  {
    ReadAttrs(Assemble(s), s);
  }

  /** A dictionary holding every attribute of `s` under its name reads as `s`. */
  lemma ReadAttrs(m: StatsDict, s: Stats)
    requires forall n: StatName :: n in m && m[n] == Attr(s, n)
    ensures Read(m) == Some(s)
  {
    assert AsStr(m[PostgresVersion]) == Some(s.version);
    assert AsInt(m[PostgresMaxConnections]) == Some(s.maxConnections);
    assert AsInt(m[PostgresCurrentConnections]) == Some(s.currentConnections);
    assert AsReal(m[PostgresConnectionsPercent]) == Some(s.connectionsPercent);
    assert AsLocks(m[PostgresLocks]) == Some(s.locks);
    assert AsSettings(m[PostgresLogFile]) == Some(s.logFile);
    assert AsInt(m[PostgresConnectedSlaves]) == Some(s.connectedSlaves);
    assert AsInt(m[PostgresSlaveLag]) == Some(s.slaveLag);
  }

  /** Every well-shaped dictionary over exactly the stat names is the
      assembly of the stats it reads as: assembly is onto. */
  lemma AssembleRead(m: StatsDict)
    requires Read(m).Some?
    ensures Assemble(Read(m).value) == m
  {
    var a := Assemble(Read(m).value);
    forall n: StatName
      ensures a[n] == m[n]
    {
      AttrOfRead(m, n);
    }
  }

  /** Each entry of a well-shaped dictionary is the attribute it reads as. */
  lemma AttrOfRead(m: StatsDict, n: StatName)
    requires Read(m).Some?
    ensures n in m && Attr(Read(m).value, n) == m[n]
  {
  }

  /** The lists are stored as fetched: the dictionary's lock and log-setting
      entries are the attributes' row sequences themselves. */
  lemma AssembleKeepsRows(s: Stats)
    requires s.locks.Some? && s.logFile.Some?
    ensures Assemble(s)[PostgresLocks] == LockRowsV(s.locks.value)
    ensures Assemble(s)[PostgresLogFile] == SettingRowsV(s.logFile.value)
  {
  }
}

=== FILE: text.dfy ===
/** Python's `str.split(sep)` with an explicit one-character separator, and the
    version token the plugin takes from it. */
module Text {

  import opened PyValues

  /** Index of the first occurrence of `c` in `s`. */
  function IndexOf(s: string, c: char): (i: nat)
    requires c in s
    ensures i < |s| && s[i] == c
    ensures c !in s[..i]
  {
    if s[0] == c then 0
    else
      assert c in s[1..] by {
        var k :| 0 <= k < |s| && s[k] == c;
        assert s[1..][k - 1] == c;
      }
      var j := IndexOf(s[1..], c);
      assert s[..j + 1] == [s[0]] + s[1..][..j];
      j + 1
  }

  /** `s.split(c)`: the maximal runs between occurrences of `c`; `k` separators
      give `k + 1` fields, empty ones included. */
  function Split(s: string, c: char): (parts: seq<string>)
    ensures |parts| >= 1
    ensures forall i :: 0 <= i < |parts| ==> c !in parts[i]
    ensures c !in s <==> parts == [s]
    decreases |s|
  {
    if c !in s then [s]
    else
      var i := IndexOf(s, c);
      [s[..i]] + Split(s[i + 1..], c)
  }

  /** `c.join(parts)`: the fields with one `c` between neighbours. */
  function Join(parts: seq<string>, c: char): string
    requires |parts| >= 1
  {
    if |parts| == 1 then parts[0]
    else parts[0] + [c] + Join(parts[1..], c)
  }

  /** Joining the fields of a split gives back the original string. */
  lemma {:induction false} JoinSplit(s: string, c: char)
    ensures Join(Split(s, c), c) == s
    decreases |s|
  {
    if c in s {
      var i := IndexOf(s, c);
      var tail := Split(s[i + 1..], c);
      assert Split(s, c) == [s[..i]] + tail by {
        SplitAtFirst(s, c);
      }
      assert Join([s[..i]] + tail, c) == s[..i] + [c] + Join(tail, c) by {
        JoinCons([s[..i]] + tail, c);
        assert ([s[..i]] + tail)[1..] == tail;
      }
      assert Join(tail, c) == s[i + 1..] by {
        JoinSplit(s[i + 1..], c);
      }
      assert s == s[..i] + [c] + s[i + 1..] by {
        assert s[i] == c;
      }
    } else {
      assert Split(s, c) == [s];
    }
  }

  /** A split at the first separator: the field before it, then the split of the rest. */
  lemma SplitAtFirst(s: string, c: char)
    requires c in s
    ensures Split(s, c) == [s[..IndexOf(s, c)]] + Split(s[IndexOf(s, c) + 1..], c)
  {
  }

  /** A join of two or more fields: the first, a separator, then the join of the rest. */
  lemma JoinCons(parts: seq<string>, c: char)
    requires |parts| > 1
    ensures Join(parts, c) == parts[0] + [c] + Join(parts[1..], c)
  {
  }

  /** The pieces around the separator in `a + [c] + b`. */
  lemma AroundSeparator(a: string, c: char, b: string)
    ensures (a + [c] + b)[..|a|] == a
    ensures (a + [c] + b)[|a| + 1..] == b
  {
  }

  /** The first `c` of `a + [c] + b` is the one after `a` when `a` holds none. */
  lemma IndexOfAfterFreePrefix(a: string, c: char, b: string)
    requires c !in a
    ensures c in a + [c] + b && IndexOf(a + [c] + b, c) == |a|
  {
    var s := a + [c] + b;
    assert s[|a|] == c;
    assert s[..|a|] == a;
  }

  /** Splitting a join of separator-free fields gives back the fields. */
  lemma {:induction false} SplitJoin(parts: seq<string>, c: char)
    requires |parts| >= 1
    requires forall i :: 0 <= i < |parts| ==> c !in parts[i]
    ensures Split(Join(parts, c), c) == parts
    decreases |parts|
  {
    if |parts| > 1 {
      var rest := Join(parts[1..], c);
      var s := parts[0] + [c] + rest;
      assert Join(parts, c) == s by {
        JoinCons(parts, c);
      }
      assert Split(s, c) == [parts[0]] + Split(rest, c) by {
        IndexOfAfterFreePrefix(parts[0], c, rest);
        SplitAtFirst(s, c);
        AroundSeparator(parts[0], c, rest);
      }
      assert Split(rest, c) == parts[1..] by {
        forall i | 0 <= i < |parts[1..]|
          ensures c !in parts[1..][i]
        {
          assert parts[1..][i] == parts[i + 1];
        }
        SplitJoin(parts[1..], c);
      }
      assert parts == [parts[0]] + parts[1..];
    } else {
      assert c !in parts[0];
    }
  }

  /** The first field of a split is the longest separator-free prefix: it is
      followed by the end of the string or by the separator. */
  lemma FirstFieldShape(t: string, c: char)
    ensures
      var f := Split(t, c)[0];
      |f| <= |t| && t[..|f|] == f && (|f| == |t| || t[|f|] == c)
  {
    if c in t {
      var i := IndexOf(t, c);
      assert Split(t, c) == [t[..i]] + Split(t[i + 1..], c);
    } else {
      assert Split(t, c) == [t];
    }
  }

  /** `raw.split(' ')[1]`: the second space-separated field of the version
      string, or `None` where Python raises `IndexError` (no space at all). */
  function VersionToken(raw: string): (r: Option<string>)
    ensures r.Some? <==> ' ' in raw
    ensures r.Some? ==> ' ' !in r.value
    ensures r.Some? ==>
      var start := IndexOf(raw, ' ') + 1;
      var end := start + |r.value|;
      end <= |raw| && raw[start..end] == r.value && (end == |raw| || raw[end] == ' ')
  {
    var parts := Split(raw, ' ');
    if |parts| > 1 then
      SecondFieldFollowsFirstSpace(raw);
      Some(parts[1])
    else
      None
  }

  /** Where the second field of a split sits in the string. */
  lemma SecondFieldFollowsFirstSpace(raw: string)
    requires ' ' in raw
    ensures |Split(raw, ' ')| > 1
    ensures
      var start := IndexOf(raw, ' ') + 1;
      var field := Split(raw, ' ')[1];
      var end := start + |field|;
      end <= |raw| && raw[start..end] == field && (end == |raw| || raw[end] == ' ')
  {
    var i := IndexOf(raw, ' ');
    var rest := raw[i + 1..];
    assert Split(raw, ' ') == [raw[..i]] + Split(rest, ' ');
    var field := Split(rest, ' ')[0];
    FirstFieldShape(rest, ' ');
    assert rest[..|field|] == raw[i + 1..i + 1 + |field|];
    assert i + 1 + |field| < |raw| ==> raw[i + 1 + |field|] == rest[|field|];
  }

  /** Conversely, a space-free word right after the first space, ending at
      the end of the string or at another space, is the token. */
  lemma VersionTokenOfFields(a: string, v: string, b: string)
    requires ' ' !in a && ' ' !in v
    requires b == [] || b[0] == ' '
    ensures VersionToken(a + [' '] + v + b) == Some(v)
  {
    var s := a + [' '] + v + b;
    assert s == a + [' '] + (v + b);
    IndexOfAfterFreePrefix(a, ' ', v + b);
    assert s[|a| + 1..] == v + b;
    assert Split(s, ' ')[1] == Split(v + b, ' ')[0];
    FirstFieldOf(v, b);
  }

  /** The first field of a space-free word followed by nothing or by a space
      is the word. */
  lemma FirstFieldOf(v: string, b: string)
    requires ' ' !in v
    requires b == [] || b[0] == ' '
    ensures Split(v + b, ' ')[0] == v
  {
    if b == [] {
      assert v + b == v;
    } else {
      assert v + b == v + [' '] + b[1..];
      IndexOfAfterFreePrefix(v, ' ', b[1..]);
      assert (v + b)[..|v|] == v;
    }
  }

  /** The token of the usual server banner is its version number. */
  lemma VersionTokenOfBanner()
    ensures VersionToken("PostgreSQL" + " " + "9.3.5" + " on x86_64") == Some("9.3.5")
  {
    VersionTokenOfFields("PostgreSQL", "9.3.5", " on x86_64");
  }
}
